=== FILE: README.md ===
# RowReorder, modelled in Dafny

A model of the core of DataTables RowReorder: the drag-and-drop row
reordering controller in `js/RowReorder.ts`, and the API toggles and
auto-initialisation in `js/dataTables.rowReorder.ts`. The model replaces
every DOM read with a plain integer input.

- **Live row order.** The page's rows form a sequence of distinct row ids.
  `_moveTargetIntoPosition` takes the dragged row out and puts it after the
  row at `insertPoint - 1` (moving to a higher point) or before the row at
  `insertPoint` (moving to a lower one). As in the DOM, naming the row itself
  as the anchor leaves the order alone. `lastInsert` records the point.
- **Placement geometry.**
  - The insertion-point search over the cached row midpoints.
  - The row under the pointer at the press (the *last* row whose box holds
    the pointer, or -1).
  - The drop-zone rectangle test.
  - The floating clone's position, with `snapX` and the vertical clamp.
  - The autoscroll step decision and whether its interval runs.
- **Diff and commit.** The release compares the start order with the end
  order and builds one record per changed slot, plus the id → value map.
  The "data swap" then writes each record's new value: every slot ends up
  holding the reorder-field value of the row that occupied it when the drag
  began. A disallowed drop or any `false` listener reply cancels instead.
- **Session state machine.** Press, move, release, ESC, cancel and cleanup
  step an immutable instance record (`lastInsert`, `dropAllowed`, the drag,
  the clone, the scroll interval, an Editor commit in flight).
  - The Editor is reduced to an outcome (succeeded, failed, cancelled). It
    clears `enable` until it reports back.
  - The constructor attaches one instance per table.
  - The configuration is the later-wins merge of host defaults, built-in
    defaults and passed options.
- **API.** `rowReorder.enable(toggle)` and `rowReorder.disable()`, plus the
  `init.dt` option merge that decides whether, and with which options, an
  instance is created.

Files:

- `common.dfy`: `Option`, row ids.
- `row_order.dfy`: order manipulation, the DOM move, the snap-back point.
- `geometry.dfy`: rectangles, the insertion point, the row under the pointer, the clone position.
- `autoscroll.dfy`: the `_shiftScroll` decision.
- `diff_commit.dfy`: diff records, the id map, the data swap.
- `options.dfy`: option values, defaults, the merge, the typed config.
- `controller.dfy`: the instance state machine and the constructor.
- `api.dfy`: the API toggles and auto-init.
- `scenarios.dfy`: concrete runs.

Row data is abstracted as a map from row id to the value at `dataSrc`, so
`getDataFn` reads that map and `setDataFn` writes it. `row.id()` is a map
from row id to string; the empty string stands for a falsy id.

### Where the code's behaviour is easy to misread

The model follows the code on each of these points:

- `lastInsert` starts at 0 (js/RowReorder.ts:97), not at an "unset" value. No
  press resets it, so it carries over from one drag to the next. The first
  move of a drag that lands on the previous drag's last point moves nothing.
- The snap-back point is `rowIndex + 1` when the start index is *greater*
  than `lastInsert`, that is, when the row started after the last insertion
  point. Otherwise it is `rowIndex`.
- Cancelling does not always restore the start order
  (`Scenarios.CancelCanLeaveRowMoved`). The same holds for the snap-back of
  a move whose clone leaves the body. `Controller.CancelRestoresOrder`
  states when it does.
- A drop back into the start order still runs `update()`. With `update` on,
  `row-reordered` is emitted with an empty diff
  (`Controller.EmptyDropStillEmitsReordered`).
- The vertical clamp keeps the clone on the document only when the clone
  is no taller than the document. A taller clone that would overflow gets a
  negative top (`Geometry.TallCloneLeavesDocument`).
- On direct construction, `RowReorder.defaults` comes after the host
  defaults, so the built-in keys shadow them (`Options.DefaultsShadowHost`).
  Auto-init first copies the host defaults into the options it passes. On
  that path they do override the built-in keys
  (`Api.AutoInitHostDefaultsWin`, `Scenarios.HostDefaultsPrecedence`).
- A touch drag never autoscrolls. The clone and the insertion point read
  the position through `_eventToPage`, which takes it from the first touch
  point of a touch event. `_shiftScroll` reads `e.pageY` directly, and a
  touch event has none, so every edge comparison fails and a running
  interval is cleared (`Autoscroll.TouchNeverScrolls`). A pointer move
  carries a touch flag for this.
- A listener veto is handled like ESC: the row snaps back and
  `row-reorder-canceled` follows `row-reorder` (`Controller.VetoRestoresOrder`).

## Model

| member | source | states |
|---|---|---|
| RowOrder.IndexOf | js/RowReorder.ts:506 | `indexOf`: the first slot holding the row, or -1 exactly when the row is absent |
| RowOrder.Place | js/RowReorder.ts:614-621 | the DOM move keeps the number of rows, and naming the dragged row as its own anchor leaves the order as it was; `PlacePermutes` and `PlacePosition` state where the row lands |
| RowOrder.PlacePermutes | js/RowReorder.ts:614-621 | the DOM move keeps the rows distinct and the same multiset, the dragged row is still present, and every other row keeps its relative order |
| RowOrder.PlacePosition | js/RowReorder.ts:614-621 | after `insertAfter(anchor)` the row sits right after the anchor, and after `insertBefore(anchor)` right before it, at the predicted index |
| RowOrder.MoveTarget | js/RowReorder.ts:604-625 | an unchanged insertion point changes nothing and emits no placement. A higher point places "after" the row at `ip-1`, a lower one "before" the row at `ip`. Either move is a permutation with the other rows in order, and the row ends at `ip-1` or `ip` |
| RowOrder.SnapBackPoint | js/RowReorder.ts:856-861 | the snap-back point is `rowIndex+1` exactly when `rowIndex > lastInsert`, else `rowIndex` |
| RowOrder.SnapBackRestores | js/RowReorder.ts:856-869 | given the row started at `rowIndex` and the other rows kept their order, the snap-back move restores the start order when nothing moved, or when the row sits at `lastInsert` or one slot left of it, except one slot left while `lastInsert == rowIndex` |
| RowOrder.DeterminedBySlot | js/RowReorder.ts:856-869 | two orders with the same other rows in the same order and the dragged row in the same slot are equal |
| Geometry.RectanglesIntersect | js/RowReorder.ts:798-806 | for proper rectangles the test holds exactly when the overlap's top-left corner, the larger left and the larger top, lies in both |
| Geometry.IntersectIffSharedPixel | js/RowReorder.ts:798-806 | for proper rectangles the separating-axis test holds exactly when some pixel lies in both |
| Geometry.IntersectSymmetric | js/RowReorder.ts:798-806 | the intersection test is symmetric |
| Geometry.SharedEdgeIsNoIntersection | js/RowReorder.ts:798-806 | rectangles that only share an edge do not intersect |
| Geometry.InsertionPoint | js/RowReorder.ts:423-439 | the insertion point is the first index whose midpoint lies below the pointer, or the number of rows; it lies in `[0, n]` |
| Geometry.InsertionPointMonotone | js/RowReorder.ts:430-439 | moving the pointer down never lowers the insertion point |
| Geometry.InsertionPointEnds | js/RowReorder.ts:430-439 | above the first midpoint the point is 0; at or below every midpoint it is `n` |
| Geometry.RowIndexAt | js/RowReorder.ts:814-835 | the result is -1 or a row whose span (ends included) holds the pointer, and no later row's span does |
| Geometry.ClonePosition | js/RowReorder.ts:269-306 | left is the start offset for `snapX: true`, the offset plus `n` for a number, else it follows the pointer plus the parent's scroll; top is 0 when negative, else the document height minus the clone height when the clone would overflow, else unchanged |
| Geometry.CloneStaysOnDocument | js/RowReorder.ts:292-300 | a clone no taller than the document stays on it, and follows the pointer whenever that keeps it on |
| Geometry.TallCloneLeavesDocument | js/RowReorder.ts:292-300 | a clone taller than the document that would overflow is placed above the page top |
| Autoscroll.WindowStep | js/RowReorder.ts:683-688 | the window step is -5 exactly within 65 of the top edge, +5 exactly within 65 of the bottom edge and not the top, otherwise none |
| Autoscroll.ContainerStep | js/RowReorder.ts:692-700 | the same rule against the scroll container's box, and no step without a container |
| Autoscroll.ShiftScroll | js/RowReorder.ts:710-723 | the interval runs with the latest steps exactly when a step is asked for. It starts only if none was running, is kept if one was, and is cleared when no step is asked for |
| Autoscroll.Decide | js/RowReorder.ts:671-723 | the interval runs exactly when the event has its own `pageY` and it is within 65 of the window's top or bottom edge or of the container's; stopping a running interval clears it |
| Autoscroll.TouchNeverScrolls | js/RowReorder.ts:677-700 | a touch move, with no `pageY` of its own, asks for no step: a running interval is cleared and none is started |
| Autoscroll.CalmPointerStopsScrolling | js/RowReorder.ts:683-723 | a pointer well inside the window and the container stops any scrolling and clears a running interval |
| DiffCommit.DiffFromRecords | js/RowReorder.ts:491-511 | each record is the one built for a changed slot: node `end[i]`, old value `field(end[i])`, new value `field(start[i])`, slot `i`, old slot `indexOf(start, end[i])` |
| DiffCommit.DiffFromOrdered | js/RowReorder.ts:491-511 | records come in strictly increasing slot order |
| DiffCommit.DiffFromComplete | js/RowReorder.ts:491-511 | every changed slot has a record |
| DiffCommit.BuildDiff | js/RowReorder.ts:491-511 | exactly one record per slot where the orders differ, in slot order, with the fields above |
| DiffCommit.DiffEmptyIffSameOrder | js/RowReorder.ts:491-511 | the diff is empty exactly when the end order equals the start order |
| DiffCommit.OldPositionIsStartSlot | js/RowReorder.ts:506 | for a permuted order each record's `oldPosition` is the row's slot in the start order |
| DiffCommit.DiffNodesDistinct | js/RowReorder.ts:501-509 | for a distinct end order no two records name the same row |
| DiffCommit.ApplyDiff | js/RowReorder.ts:538-552 | the write loop keeps the set of rows, leaves rows without a record untouched, and gives each row the new value of its last record |
| DiffCommit.DataSwapAt | js/RowReorder.ts:536-552 | after the writes the row in slot `i` holds the pre-drag value of `start[i]` |
| DiffCommit.DataSwap | js/RowReorder.ts:17-19 | the data swap: after the commit every slot's row holds the value its start row held |
| DiffCommit.IdValues | js/RowReorder.ts:493-499 | `idDiff` holds exactly the ids of the records' rows that have one, each with the new value of the last record for that id |
| DiffCommit.IdValuesKeys | js/RowReorder.ts:493-499 | the id map's keys are exactly the ids of the records' rows that have a non-empty id |
| DiffCommit.IdValuesLastWriter | js/RowReorder.ts:497-499 | each id maps to the new value of the last record with that id |
| DiffCommit.IdValuesUntouched | js/RowReorder.ts:497-499 | an id that no record writes keeps its value |
| DiffCommit.SameOrderNoDiff | js/RowReorder.ts:491-511 | a drop back into the start order builds no records and an empty id map |
| Options.Assign | js/RowReorder.ts:56-61 | `Object.assign`: keys are the union, and the source's value wins on shared keys |
| Options.Merged | js/RowReorder.ts:56-61 | the constructor's config. Passed options win, then the built-in defaults, then plain-object host defaults; its keys are the union of all three |
| Options.Resolve | js/RowReorder.ts:281-290 | the handlers' reads of the merged options: `enable`, `update`, `cancelable` and `editor` are on exactly when their value is not one of `undefined`, `null`, `false`, `0`, `""`, and `snapX` acts only for `true` or a number |
| Options.SnapOf | js/RowReorder.ts:281-290 | `snapX === true` locks, a number offsets by that number, anything else is free |
| Options.DefaultsShadowHost | js/RowReorder.ts:56-61 | on direct construction the host defaults cannot change any built-in key, so the typed config does not depend on them |
| Options.DefaultConfig | js/RowReorder.ts:29-39 | with no options the instance is enabled, updates, is not cancelable, snaps freely and has no Editor |
| Controller.StartDrag | js/RowReorder.ts:340-398 | a press records the page order as the start order and the dragged row. It keeps `lastInsert` and `dropAllowed`, and the invariant holds |
| Controller.MouseDown | js/RowReorder.ts:148-173 | a drag starts exactly when enabled, not on an excluded child, and on a table row. It then emits `pre-row-reorder` and records the row under the pointer; otherwise nothing changes |
| Controller.MoveTargetIntoPosition | js/RowReorder.ts:604-635 | an unchanged point changes nothing. Otherwise `lastInsert` becomes the point, one `row-reorder-changed` event carries the placement, and the order stays a permutation with the other rows in order |
| Controller.DropAllowedAfter | js/RowReorder.ts:412-421 | a non-cancelable drag keeps `dropAllowed`; a cancelable one allows the drop exactly when the clone's area shares a pixel with the body's (for proper areas) |
| Controller.MovePoint | js/RowReorder.ts:423-455 | a cancelable drag whose drop is not allowed uses the snap-back point; otherwise the midpoint search result |
| Controller.MouseMove | js/RowReorder.ts:406-460 | a move writes no data and permutes the rows. It places the clone by `_clonePosition` and recomputes `dropAllowed` only when cancelable. It records the point and emits an event exactly when the point changed. That event is one `row-reorder-changed` for the dragged row, `After` when the point moved down, carrying the new point, and after it the row sits at the slot just before that point or at it in the new order. The dragged row stays the same, and the interval is left as the autoscroll decision for the event says |
| Controller.Cleanup | js/RowReorder.ts:640-660 | cleanup leaves no drag, no clone and no scroll interval, and changes nothing else |
| Controller.SnapBack | js/RowReorder.ts:856-863 | the cancel's move writes no data, permutes the rows and records the snap-back point |
| Controller.Cancel | js/RowReorder.ts:856-869 | a cancel writes no data, ends the drag with cleanup, records the snap-back point, and ends with `row-reorder-canceled(rowIndex)`; it never emits `row-reorder` or `row-reordered` |
| Controller.KeyUp | js/RowReorder.ts:842-850 | ESC (27) on a cancelable drag is exactly `Cancel`: snap-back, cleanup, `lastInsert` set to the snap-back point, `row-reorder-canceled` last. Any other key, or no cancelable drag, changes nothing |
| Controller.Update | js/RowReorder.ts:536-559 | with `update` off nothing is written or emitted. With it on, each record's row gets its new value (last one wins), other rows are untouched, and `row-reordered` is emitted |
| Controller.Commit | js/RowReorder.ts:533-595 | an accepted drop cleans up. With an Editor it writes nothing, clears `enable` and holds the submission; without one it runs `update()` |
| Controller.Vetoed | js/RowReorder.ts:528 | the drop is vetoed exactly when some listener returned the boolean `false` |
| Controller.FalsyRepliesDoNotVeto | js/RowReorder.ts:526-531 | listeners returning `undefined`, `null`, `0` or `""` do not veto: `includes(false)` is a strict test |
| Controller.MouseUp | js/RowReorder.ts:468-596 | a disallowed drop is a cancel. Otherwise `row-reorder` goes first with the drop's diff. A veto is then exactly the cancel: the same final state, and the cancel's events after `row-reorder`. An accepted drop is exactly the commit after `row-reorder`: the commit's state, then its events, so `row-reordered` follows when `update` is on. An Editor commit writes nothing yet, `update` off writes nothing, and `update` on performs the data swap |
| Controller.EditorDone | js/RowReorder.ts:561-592 | every outcome turns `enable` back on and clears the submission; only success runs `update()` |
| Controller.CancelRestoresOrder | js/RowReorder.ts:856-869 | if the row under the pointer was the dragged row, the cancel restores the start order when nothing moved, or the start index differs from `lastInsert`, or the row sits at `lastInsert` |
| Controller.EscRestoresOrder | js/RowReorder.ts:842-869 | under the conditions of `CancelRestoresOrder`, ESC on a cancelable drag returns the page to its start order, writes no data and ends with `row-reorder-canceled` |
| Controller.VetoRestoresOrder | js/RowReorder.ts:526-531 | under the conditions of `CancelRestoresOrder`, a vetoed drop returns the page to its start order and writes no data |
| Controller.UnmovedCancelIsNoOp | js/RowReorder.ts:856-869 | a cancel before any move leaves the page as it was, when the row under the pointer was the dragged one |
| Controller.DisallowedMoveSnapsBack | js/RowReorder.ts:441-457 | on a cancelable drag a move with the clone off the body clears `dropAllowed`. If the row under the pointer at the press was the dragged row, and nothing moved, or the start index differs from `lastInsert`, or the row sits at `lastInsert`, the move returns the rows to the start order |
| Controller.AbortWritesNothing | js/RowReorder.ts:475-531 | a disallowed or vetoed drop writes no data, ends the drag and ends with `row-reorder-canceled`, never `row-reordered` |
| Controller.EditorSuccessSwapsData | js/RowReorder.ts:561-591 | with `update` on and an allowed, unvetoed drop, a release through the Editor clears `enable` and writes nothing; success then performs the data swap and re-enables |
| Controller.PressIgnoredWhileSubmitting | js/RowReorder.ts:564 | while an Editor commit is in flight a press is ignored |
| Controller.EmptyDropStillEmitsReordered | js/RowReorder.ts:536-559 | with `update` on, no Editor, an allowed drop and no veto, a drop into the start order emits `row-reorder` and `row-reordered` with an empty diff and id map, and writes nothing |
| Controller.Construct | js/RowReorder.ts:110-124 | on a table with an instance nothing changes. Otherwise an instance is attached with the merged config, `lastInsert` 0, drop allowed, and no drag, clone, interval or submission |
| Controller.ConstructOnce | js/RowReorder.ts:110-116 | constructing twice is constructing once |
| Controller.ConstructWf | js/RowReorder.ts:63-98 | a fresh instance on a well-formed page satisfies the invariant |
| Api.SetEnable | js/dataTables.rowReorder.ts:25-29 | an instance takes the flag with nothing else changed; a table without one is untouched |
| Api.ApiEnable | js/dataTables.rowReorder.ts:20-30 | every instance takes `toggle`, or `true` when it is not given; every other field of the instance and of its configuration is kept, and tables without one are untouched |
| Api.ApiDisable | js/dataTables.rowReorder.ts:32-38 | every instance is disabled; every other field of the instance and of its configuration is kept, and tables without one are untouched |
| Api.DisableIsEnableFalse | js/dataTables.rowReorder.ts:32-38 | `disable()` is `enable(false)` |
| Api.LastToggleWins | js/dataTables.rowReorder.ts:20-38 | after two toggles only the last one's flag remains |
| Api.DisabledTableIgnoresPress | js/dataTables.rowReorder.ts:32-38 | after `disable()` a press on an instrumented table is ignored |
| Api.AutoInitOptions | js/dataTables.rowReorder.ts:49-68 | nothing is constructed when the table option is `false`, or when neither it nor the host default is truthy. Otherwise the options are the plain host defaults overlaid key by key by the plain table option |
| Api.InitTable | js/dataTables.rowReorder.ts:44-69 | `init.dt` leaves an instrumented table alone and attaches an instance exactly when auto-init yields options. That instance is fresh, and its config is the constructor's merge of the host defaults with the auto-init options |
| Api.AutoInitHostDefaultsWin | js/dataTables.rowReorder.ts:53-61 | through auto-init a host default reaches the config for any key the table option leaves out, built-in keys included |
| Api.TableOptionWins | js/dataTables.rowReorder.ts:59-61 | a key the table option sets reaches the config unchanged |
| Scenarios.CancelCanLeaveRowMoved | js/RowReorder.ts:856-869 | on `[1,2,3,4]`, moves to points 2, 0, 1 then a cancel leave row 2 first |
| Scenarios.MoveFirstToEnd | js/RowReorder.ts:614-617 | dragging the first of three rows to point 3 gives `[2,3,1]` |
| Scenarios.CancelFromEndRestores | js/RowReorder.ts:856-869 | cancelling that drag restores `[1,2,3]` |
| Scenarios.RotateThreeRowsDiff | js/RowReorder.ts:491-511 | `[1,2,3]` → `[2,3,1]` with values 10, 20, 30 gives three records with the swapped values |
| Scenarios.RotateThreeRows | js/RowReorder.ts:536-552 | committing it leaves row 2 with 10, row 3 with 20 and row 1 with 30 |
| Scenarios.SwapWithUnnamedRow | js/RowReorder.ts:491-511 | swapping two rows gives two records, each with the other's value; a row without an id stays out of the id map |
| Scenarios.HostDefaultsPrecedence | js/dataTables.rowReorder.ts:53-66 | host defaults `{enable: false}` with table option `true` start disabled through auto-init, while direct construction stays enabled |
| Scenarios.FalseOptionSuppressesInit | js/dataTables.rowReorder.ts:63 | the table option `false` creates no instance, whatever the host default |

## Left out

- DOM measurement is taken as integer inputs: `_cachePositions`, `_clone`,
  `_calcBodyArea`, `_calcCloneParentArea`, `offset`, `position`, and the
  height and width reads. Real pixel values are fractional; the midpoint
  division is part of the measurement.
- Event wiring and dispatch are reduced to inputs and an event list:
  `on`/`off`, `trigger`, the `e.namespace` check of `init.dt`, the destroy handler, the ESC listener's
  attachment, and `preventDefault`.
- Selector matching (`selector`, `excludedChildren`, `closest('tr')`,
  `row.any()`) is reduced to the pressed row and an "excluded child" flag.
- The scroll interval's tick body (js/RowReorder.ts:724-748) is left out,
  because it drives browser scrolling; only the decision and the running
  flag are modelled.
- Rendering is left out: CSS class toggles, `position: relative`, `dt.draw`,
  cell invalidation, and the redraw on Editor failure or cancellation.
- Editor internals (`edit`, `multiSet`, the `formOptions` merge, `submit`)
  are a foreign API, reduced to an outcome. The `submitComplete` handler is
  not namespaced, so `off('.rowReorder')` does not remove it. That leak is
  not modelled.
- The `row-reorder` payload's `dataSrc`, `nodes` and `originalEvent`, and
  the row index in `pre-row-reorder`, are omitted. `nodes` is the diff's rows.
- `rowReorder()` (a no-op API method) and the `windowWidth`, `dtLeft` and
  `dtWidth` scroll measurements (never read) are left out.
- `js/dataTables.rowReorder.js`, the superseded jQuery implementation, is not
  part of this model.
- Api.ApiEnable: the toggle is a boolean, while the code stores any value
  and later tests its truthiness.
- Controller.MouseDown: requires that no drag is in progress, because a
  second press during a drag is not expected to occur.
- Controller.MouseUp: requires that no Editor commit is already in flight
  when an Editor is configured. That only happens if the API re-enables the
  instance during a submission. On its cancel paths (a disallowed drop or a
  veto) it also requires a row under the pointer at the press
  (`rowIndex >= 0`), as `Controller.Cancel` does.
- Controller.KeyUp: on the ESC path it requires a row under the pointer at
  the press (`rowIndex >= 0`), as `Controller.Cancel` does.
- Controller.Cancel: requires a row under the pointer at the press
  (`rowIndex >= 0`), because the code calls `insertBefore(nodes[-1])`
  otherwise.
- Controller.MouseMove: requires an insertion point the code can act on
  (`CanPlace`). This excludes `rowIndex == -1` during a snap-back and
  `insertBefore(nodes[n])` when a stale `lastInsert` exceeds the page size.
- Geometry.IntersectIffSharedPixel: only for rectangles of positive width
  and height. For degenerate rectangles the separating-axis test and
  pixel-sharing can disagree.
- Geometry.CloneStaysOnDocument: only for clones no taller than the
  document; `Geometry.TallCloneLeavesDocument` covers the rest.

=== FILE: api.dfy ===
/**
 * The API and auto-initialisation layer (js/dataTables.rowReorder.ts):
 * `rowReorder.enable()` / `rowReorder.disable()` over the tables an API
 * instance holds, and the `init.dt` handler that builds the constructor's
 * options from the table's `rowReorder` option and the host defaults.
 */
module Api {
  import opened Common
  import opened Options
  import opened Controller

  /** One table's share of the toggles: the instance's `enable` flag is set; a table without an instance is left alone. */
  function SetEnable<V>(t: Table<V>, flag: bool): (r: Table<V>)
    ensures r.host == t.host
    ensures r.rowReorder.None? <==> t.rowReorder.None?
    ensures t.rowReorder.None? ==> r == t
    ensures r.rowReorder.Some? ==>
      && r.rowReorder.value.config.enable == flag
      && r.rowReorder.value.config.(enable := t.rowReorder.value.config.enable) == t.rowReorder.value.config
      && r.rowReorder.value.(config := t.rowReorder.value.config) == t.rowReorder.value
  {
    match t.rowReorder
    case None => t
    case Some(rr) => t.(rowReorder := Some(rr.(config := rr.config.(enable := flag))))
  }

  /** The flag `enable(toggle)` stores: the toggle, or `true` when it is not given. */
  function ToggleFlag(toggle: Option<bool>): bool {
    if toggle.Some? then toggle.value else true
  }

  /** `rowReorder.enable(toggle)`: every table's instance takes `toggle`, or `true` when it is not given. */
  function ApiEnable<V>(ts: seq<Table<V>>, toggle: Option<bool>): (r: seq<Table<V>>)
    ensures |r| == |ts|
    ensures forall i :: 0 <= i < |ts| ==> r[i].host == ts[i].host
    ensures forall i :: 0 <= i < |ts| ==> (r[i].rowReorder.None? <==> ts[i].rowReorder.None?)
    ensures forall i :: 0 <= i < |ts| && ts[i].rowReorder.None? ==> r[i] == ts[i]
    ensures forall i :: 0 <= i < |ts| && r[i].rowReorder.Some? ==>
      r[i].rowReorder.value.config.enable == (toggle.None? || toggle.value)
    ensures forall i :: 0 <= i < |ts| && ts[i].rowReorder.Some? ==>
      && r[i].rowReorder.value.(config := ts[i].rowReorder.value.config) == ts[i].rowReorder.value
      && r[i].rowReorder.value.config.(enable := ts[i].rowReorder.value.config.enable) == ts[i].rowReorder.value.config
  {
    seq(|ts|, i requires 0 <= i < |ts| => SetEnable(ts[i], ToggleFlag(toggle)))
  }

  /** `rowReorder.disable()`: every table's instance is disabled. */
  function ApiDisable<V>(ts: seq<Table<V>>): (r: seq<Table<V>>)
    ensures |r| == |ts|
    ensures forall i :: 0 <= i < |ts| ==> r[i].host == ts[i].host
    ensures forall i :: 0 <= i < |ts| && ts[i].rowReorder.None? ==> r[i] == ts[i]
    ensures forall i :: 0 <= i < |ts| && ts[i].rowReorder.Some? ==>
      r[i].rowReorder.Some? && !r[i].rowReorder.value.config.enable
    ensures forall i :: 0 <= i < |ts| && ts[i].rowReorder.Some? ==>
      && r[i].rowReorder.value.(config := ts[i].rowReorder.value.config) == ts[i].rowReorder.value
      && r[i].rowReorder.value.config.(enable := ts[i].rowReorder.value.config.enable) == ts[i].rowReorder.value.config
  {
    seq(|ts|, i requires 0 <= i < |ts| => SetEnable(ts[i], false))
  }

  /** Disabling is `enable(false)`. */
  lemma DisableIsEnableFalse<V>(ts: seq<Table<V>>)
    ensures ApiDisable(ts) == ApiEnable(ts, Some(false))
  {
  }

  /** Toggling twice: only the last call's flag survives; everything else is as before either call. */
  lemma LastToggleWins<V>(ts: seq<Table<V>>, first: Option<bool>, second: Option<bool>)
    ensures ApiEnable(ApiEnable(ts, first), second) == ApiEnable(ts, second)
    ensures ApiEnable(ApiDisable(ts), second) == ApiEnable(ts, second)
  {
    var a := ApiEnable(ApiEnable(ts, first), second);
    var b := ApiEnable(ts, second);
    forall i | 0 <= i < |ts| ensures a[i] == b[i] {
      if ts[i].rowReorder.Some? {
        var rr := ts[i].rowReorder.value;
        assert a[i].rowReorder.value == rr.(config := rr.config.(enable := ToggleFlag(second)));
      }
    }
    var c := ApiEnable(ApiDisable(ts), second);
    forall i | 0 <= i < |ts| ensures c[i] == b[i] {
      if ts[i].rowReorder.Some? {
        var rr := ts[i].rowReorder.value;
        assert c[i].rowReorder.value == rr.(config := rr.config.(enable := ToggleFlag(second)));
      }
    }
  }

  /** After `disable()` a press on any instrumented table is ignored. */
  lemma DisabledTableIgnoresPress<V>(ts: seq<Table<V>>, i: nat, p: Press)
    requires i < |ts| && ts[i].rowReorder.Some?
    requires var st := State(ts[i].host, ts[i].rowReorder.value);
      Wf(st) && st.rr.drag.None? && Measures(p, |st.host.order|)
    ensures var t := ApiDisable(ts)[i];
      var st := State(t.host, t.rowReorder.value);
      Wf(st) && MouseDown(st, p) == Step(st, [])
  {
  }

  /**
   * The options the `init.dt` handler passes to the constructor, or none
   * when it constructs nothing: nothing when neither the table option nor
   * the host default is truthy, or when the table option is exactly
   * `false`; otherwise the host defaults' keys overlaid by the table
   * option's, each only when it is a plain object.
   */
  function AutoInitOptions(init: Setting, hostDefaults: Setting): (r: Option<Options>)
    ensures r.None? <==> init == Flag(false) || (!Enabled(init) && !Enabled(hostDefaults))
    ensures r.Some? ==> r.value.Keys == PlainOrEmpty(hostDefaults).Keys + PlainOrEmpty(init).Keys
    ensures r.Some? ==> forall k :: k in PlainOrEmpty(init) ==> r.value[k] == init.opts[k]
    ensures r.Some? ==> forall k :: k !in PlainOrEmpty(init) && k in PlainOrEmpty(hostDefaults) ==>
      r.value[k] == hostDefaults.opts[k]
  {
    if !(Enabled(init) || Enabled(hostDefaults)) then None
    else
      var opts := Assign(Assign(map[], PlainOrEmpty(hostDefaults)), PlainOrEmpty(init));
      if init != Flag(false) then Some(opts) else None
  }

  /** The `init.dt` handler on one table: construct with the auto-init options, if any. */
  function InitTable<V>(t: Table<V>, init: Setting, hostDefaults: Setting): (r: Table<V>)
    ensures r.host == t.host
    ensures r.rowReorder.Some? <==> t.rowReorder.Some? || AutoInitOptions(init, hostDefaults).Some?
    ensures t.rowReorder.Some? ==> r == t
    ensures t.rowReorder.None? && AutoInitOptions(init, hostDefaults).Some? ==>
      var rr := r.rowReorder.value;
      && rr.config == Resolve(Merged(hostDefaults, AutoInitOptions(init, hostDefaults).value))
      && rr.lastInsert == 0 && rr.dropAllowed
      && rr.drag.None? && rr.clone.None? && rr.timer.Stopped? && rr.pending.None?
  {
    match AutoInitOptions(init, hostDefaults)
    case None => t
    case Some(opts) => Construct(t, hostDefaults, opts)
  }

  /**
   * Through auto-init the host defaults reach even the built-in keys:
   * they are merged into the options, which come after `RowReorder.defaults`.
   * So a key the table option leaves out takes the host default's value.
   */
  lemma AutoInitHostDefaultsWin(init: Setting, hostDefaults: Setting, k: string)
    requires AutoInitOptions(init, hostDefaults).Some?
    requires k !in PlainOrEmpty(init) && k in PlainOrEmpty(hostDefaults)
    ensures Get(Merged(hostDefaults, AutoInitOptions(init, hostDefaults).value), k) == hostDefaults.opts[k]
  {
  }

  /** A key the table option sets reaches the instance's configuration unchanged. */
  lemma TableOptionWins(init: Setting, hostDefaults: Setting, k: string)
    requires AutoInitOptions(init, hostDefaults).Some? && k in PlainOrEmpty(init)
    ensures Get(Merged(hostDefaults, AutoInitOptions(init, hostDefaults).value), k) == init.opts[k]
  {
  }
}

=== FILE: autoscroll.dfy ===
/**
 * The autoscroll decision of `_shiftScroll` (js/RowReorder.ts:671-723):
 * near an edge of the window, or of the table's scrolling container, the
 * drag asks for a 5 pixel step every tick, and a single repeating timer
 * runs while any step is asked for. The timer's tick body is not modelled.
 */
module Autoscroll {
  import opened Common

  /** Pixels moved per tick. */
  const ScrollSpeed: int := 5

  /** Distance from an edge within which scrolling starts. */
  const Buffer: int := 65

  /** The scrolling container's cached top and outer height. */
  datatype Container = Container(top: int, height: int)

  /**
   * The scroll measurements cached at drag start; `container` is `None`
   * when the scroll wrapper has no element (`dtTop === null`).
   */
  datatype ScrollCache = ScrollCache(windowHeight: int, container: Option<Container>)

  /** The pointer is within the buffer of the window's top edge. */
  predicate NearWindowTop(pageY: int, bodyScrollTop: int, windowScrollTop: int) {
    pageY - bodyScrollTop < windowScrollTop + Buffer
  }

  /** The pointer is within the buffer of the window's bottom edge. */
  predicate NearWindowBottom(pageY: int, bodyScrollTop: int, windowScrollTop: int, windowHeight: int) {
    pageY - bodyScrollTop > windowHeight + windowScrollTop - Buffer
  }

  /** The window's vertical step: up near the top, otherwise down near the bottom, otherwise none. */
  function WindowStep(pageY: int, bodyScrollTop: int, windowScrollTop: int, windowHeight: int): (r: Option<int>)
    ensures r == Some(-ScrollSpeed) <==> NearWindowTop(pageY, bodyScrollTop, windowScrollTop)
    ensures r == Some(ScrollSpeed) <==>
      !NearWindowTop(pageY, bodyScrollTop, windowScrollTop)
      && NearWindowBottom(pageY, bodyScrollTop, windowScrollTop, windowHeight)
    ensures r.None? || r == Some(-ScrollSpeed) || r == Some(ScrollSpeed)
  {
    if NearWindowTop(pageY, bodyScrollTop, windowScrollTop) then Some(-ScrollSpeed)
    else if NearWindowBottom(pageY, bodyScrollTop, windowScrollTop, windowHeight) then Some(ScrollSpeed)
    else None
  }

  /** The container's vertical step, by the same rule against its cached box; none without a container. */
  function ContainerStep(pageY: int, container: Option<Container>): (r: Option<int>)
    ensures container.None? ==> r.None?
    ensures container.Some? ==>
      (r == Some(-ScrollSpeed) <==> pageY < container.value.top + Buffer)
    ensures container.Some? ==>
      (r == Some(ScrollSpeed) <==>
        !(pageY < container.value.top + Buffer)
        && pageY > container.value.top + container.value.height - Buffer)
    ensures r.None? || r == Some(-ScrollSpeed) || r == Some(ScrollSpeed)
  {
    match container
    case None => None
    case Some(c) =>
      if pageY < c.top + Buffer then Some(-ScrollSpeed)
      else if pageY > c.top + c.height - Buffer then Some(ScrollSpeed)
      else None
  }

  /**
   * The scroll interval: stopped, or running with the steps it applies on
   * each tick (`scroll.windowVert` / `scroll.dtVert`).
   */
  datatype Timer = Stopped | Running(windowVert: Option<int>, dtVert: Option<int>)

  /** What `_shiftScroll` does to the interval. */
  datatype TimerAction = StartTimer | KeepTimer | ClearTimer | NoTimer

  datatype ScrollDecision = ScrollDecision(timer: Timer, action: TimerAction)

  /**
   * The interval bookkeeping of `_shiftScroll`: a step hands the latest
   * steps to the interval, starting one only if none is running; no step
   * clears a running interval.
   */
  function ShiftScroll(timer: Timer, windowVert: Option<int>, dtVert: Option<int>): (r: ScrollDecision)
    ensures r.timer.Running? <==> windowVert.Some? || dtVert.Some?
    ensures r.timer.Running? ==> r.timer == Running(windowVert, dtVert)
    ensures r.action == StartTimer <==> (windowVert.Some? || dtVert.Some?) && timer.Stopped?
    ensures r.action == KeepTimer <==> (windowVert.Some? || dtVert.Some?) && timer.Running?
    ensures r.action == ClearTimer <==> windowVert.None? && dtVert.None? && timer.Running?
  {
    if windowVert.Some? || dtVert.Some? then
      ScrollDecision(Running(windowVert, dtVert), if timer.Running? then KeepTimer else StartTimer)
    else if timer.Running? then ScrollDecision(Stopped, ClearTimer)
    else ScrollDecision(Stopped, NoTimer)
  }

  /** The pointer is within the buffer of an edge of the scrolling container, when there is one. */
  predicate NearContainerEdge(pageY: int, container: Option<Container>) {
    container.Some? &&
      (pageY < container.value.top + Buffer || pageY > container.value.top + container.value.height - Buffer)
  }

  /**
   * The whole `_shiftScroll` decision for one pointer move. It reads the
   * event's own `pageY`, not the touch-aware `_eventToPage`: `rawPageY` is
   * `None` for a touch event, whose `pageY` is undefined, so that every
   * edge comparison fails and no step is asked for.
   */
  function Decide(timer: Timer, rawPageY: Option<int>, bodyScrollTop: int, windowScrollTop: int, cache: ScrollCache): (r: ScrollDecision)
    ensures r.timer.Running? <==>
      rawPageY.Some? &&
        (|| NearWindowTop(rawPageY.value, bodyScrollTop, windowScrollTop)
         || NearWindowBottom(rawPageY.value, bodyScrollTop, windowScrollTop, cache.windowHeight)
         || NearContainerEdge(rawPageY.value, cache.container))
    ensures r.timer.Stopped? && timer.Running? ==> r.action == ClearTimer
  {
    match rawPageY
    case None => ShiftScroll(timer, None, None)
    case Some(pageY) =>
      ShiftScroll(timer,
        WindowStep(pageY, bodyScrollTop, windowScrollTop, cache.windowHeight),
        ContainerStep(pageY, cache.container))
  }

  /** A pointer well inside both the window and the container stops any scrolling. */
  lemma CalmPointerStopsScrolling(timer: Timer, pageY: int, bodyScrollTop: int, windowScrollTop: int, cache: ScrollCache)
    requires !NearWindowTop(pageY, bodyScrollTop, windowScrollTop)
    requires !NearWindowBottom(pageY, bodyScrollTop, windowScrollTop, cache.windowHeight)
    requires cache.container.Some? ==>
      cache.container.value.top + Buffer <= pageY <= cache.container.value.top + cache.container.value.height - Buffer
    ensures Decide(timer, Some(pageY), bodyScrollTop, windowScrollTop, cache).timer == Stopped
    ensures timer.Running? ==> Decide(timer, Some(pageY), bodyScrollTop, windowScrollTop, cache).action == ClearTimer
  {
  }

  /** A touch move never asks for a step, so it clears a running interval and never starts one. */
  lemma TouchNeverScrolls(timer: Timer, bodyScrollTop: int, windowScrollTop: int, cache: ScrollCache)
    ensures Decide(timer, None, bodyScrollTop, windowScrollTop, cache).timer == Stopped
    ensures Decide(timer, None, bodyScrollTop, windowScrollTop, cache).action ==
      (if timer.Running? then ClearTimer else NoTimer)
  {
  }
}

=== FILE: common.dfy ===
/** Row handles and the optional value shared by the other modules. */
module Common {

  /** A row handle: stable across reordering, compared by identity. */
  type RowId = nat

  /** A value that may be missing, where the code has `null` or `undefined`. */
  datatype Option<T> = None | Some(value: T)
}

=== FILE: controller.dfy ===
/**
 * One RowReorder instance as a state machine (js/RowReorder.ts): the
 * instance settings and the host table's rows are stepped by the drag's
 * handlers: press (`_mouseDown`), pointer move (`_mouseMove`), release
 * (`_mouseUp`), ESC (`_keyup`), the cancel and cleanup they share, the
 * Editor's completion hooks, and the constructor's one-instance guard.
 * DOM measurements and listener results are inputs of each step.
 */
module Controller {
  import opened Common
  import opened RowOrder
  import opened Geometry
  import opened Autoscroll
  import opened DiffCommit
  import opened Options

  /** `s.start`: the pointer and the row's offset at the press, the page's rows in order, and the row under the pointer. */
  datatype Start = Start(anchor: Anchor, nodes: seq<RowId>, rowIndex: int)

  /** What `_cachePositions` measures: row midpoints, the body's top and area, the document height. */
  datatype Cache = Cache(middles: seq<int>, bodyTop: int, bodyArea: Area, documentOuterHeight: int)

  /** A drag in progress: its start, the dragged row, the cached measurements, the clone's height and the scroll cache. */
  datatype Drag = Drag(start: Start, target: RowId, cache: Cache, cloneOuterHeight: int, scroll: ScrollCache)

  /** A commit waiting on the Editor: the diff, the id map and the dragged row. */
  datatype Submission<V> = Submission(diff: seq<Diff<V>>, values: map<string, V>, trigger: RowId)

  /**
   * The instance: its configuration, `lastInsert` and `dropAllowed` (both
   * kept across drags), the drag in progress, the floating clone's
   * position (`cloneParent`), the scroll interval and an Editor commit in flight.
   */
  datatype Instance<V> = Instance(
    config: Config,
    lastInsert: nat,
    dropAllowed: bool,
    drag: Option<Drag>,
    clone: Option<Point>,
    timer: Timer,
    pending: Option<Submission<V>>)

  /** The host table's current page: rows in document order, their reorder-field values and their ids. */
  datatype Host<V> = Host(order: seq<RowId>, field: map<RowId, V>, ids: map<RowId, string>)

  datatype State<V> = State(host: Host<V>, rr: Instance<V>)

  /** The events RowReorder emits on the table. */
  datatype Event<V> =
    | PreRowReorder(row: RowId)
    | ReorderChanged(placement: Placement, insertPoint: int, row: RowId)
    | RowReorder(diff: seq<Diff<V>>, values: map<string, V>, trigger: RowId)
    | RowReordered(diff: seq<Diff<V>>, values: map<string, V>, trigger: RowId)
    | Canceled(rowIndex: int)

  /** The state after a handler and the events it emitted, in order. */
  datatype Step<V> = Step(state: State<V>, events: seq<Event<V>>)

  ghost predicate HostWf<V>(h: Host<V>) {
    Distinct(h.order) && Covers(h.field, h.order)
  }

  /**
   * What a drag keeps true: the dragged row is on the page, the start
   * order is a distinct order of the same length with the same other rows
   * in the same relative order, one midpoint per row, and either nothing
   * has moved or the row sits at the last insertion point or just left of it.
   */
  ghost predicate DragWf<V>(order: seq<RowId>, field: map<RowId, V>, last: nat, d: Drag) {
    && d.target in order && d.target in d.start.nodes
    && Distinct(d.start.nodes) && |d.start.nodes| == |order|
    && Covers(field, d.start.nodes)
    && Without(order, d.target) == Without(d.start.nodes, d.target)
    && -1 <= d.start.rowIndex < |order|
    && |d.cache.middles| == |order|
    && (order == d.start.nodes || Tracks(order, d.target, last))
  }

  ghost predicate Wf<V>(st: State<V>) {
    && HostWf(st.host)
    && (st.rr.drag.Some? <==> st.rr.clone.Some?)
    && (st.rr.timer.Running? ==> st.rr.drag.Some?)
    && (st.rr.drag.Some? ==> DragWf(st.host.order, st.host.field, st.rr.lastInsert, st.rr.drag.value))
    && (st.rr.pending.Some? ==> forall j :: 0 <= j < |st.rr.pending.value.diff| ==>
          st.rr.pending.value.diff[j].node in st.host.field)
  }

  /** A permutation of a covered order is covered. */
  lemma CoversPermutation<V>(field: map<RowId, V>, s: seq<RowId>, s': seq<RowId>)
    requires Covers(field, s) && multiset(s') == multiset(s)
    ensures Covers(field, s')
  {
    forall k | 0 <= k < |s'| ensures s'[k] in field {
      assert s'[k] in multiset(s');
      assert s'[k] in s;
    }
  }

  // ---------------------------------------------------------------- press

  /**
   * A press on the selector: the row pressed, whether the press landed on
   * an excluded child, the pointer, and what `_mouseDown` measures.
   */
  datatype Press = Press(
    row: RowId, excluded: bool, pageX: int, pageY: int,
    offsetTop: int, offsetLeft: int,
    cache: Cache, rows: seq<RowBox>, headerHeight: int,
    cloneOuterHeight: int, scrollLeft: int, scroll: ScrollCache)

  /** The measurements describe the page's rows: one midpoint and one box per row. */
  predicate Measures(p: Press, n: nat) {
    |p.cache.middles| == n && |p.rows| == n
  }

  /** `_mouseDown`: record the start, cache positions, float the clone and find the row under the pointer. */
  function StartDrag<V>(st: State<V>, p: Press): (r: State<V>)
    requires Wf(st) && st.rr.drag.None? && p.row in st.host.order && Measures(p, |st.host.order|)
    ensures Wf(r) && r.host == st.host
    ensures r.rr.drag.Some? && r.rr.drag.value.start.nodes == st.host.order && r.rr.drag.value.target == p.row
    ensures r.rr.lastInsert == st.rr.lastInsert && r.rr.dropAllowed == st.rr.dropAllowed
    ensures r.rr.config == st.rr.config && r.rr.timer == st.rr.timer && r.rr.pending == st.rr.pending
  {
    var anchor := Anchor(p.pageY, p.pageX, p.offsetTop, p.offsetLeft);
    var rowIndex := RowIndexAt(p.rows, p.headerHeight, p.pageY - p.cache.bodyTop);
    var d := Drag(Start(anchor, st.host.order, rowIndex), p.row, p.cache, p.cloneOuterHeight, p.scroll);
    var clone := ClonePosition(anchor, p.pageX, p.pageY, st.rr.config.snapX, p.scrollLeft,
                               p.cloneOuterHeight, p.cache.documentOuterHeight);
    State(st.host, st.rr.(drag := Some(d), clone := Some(clone)))
  }

  /**
   * The press handler: ignored when disabled, on an excluded child, or off
   * a table row; otherwise `pre-row-reorder` is emitted and the drag starts.
   */
  function MouseDown<V>(st: State<V>, p: Press): (r: Step<V>)
    requires Wf(st) && st.rr.drag.None? && Measures(p, |st.host.order|)
    ensures Wf(r.state) && r.state.host == st.host
    ensures r.state.rr.drag.Some? <==> st.rr.config.enable && !p.excluded && p.row in st.host.order
    ensures r.state.rr.drag.None? ==> r == Step(st, [])
    ensures r.state.rr.drag.Some? ==>
      && r.events == [PreRowReorder(p.row)]
      && r.state.rr.drag.value.start.nodes == st.host.order
      && r.state.rr.drag.value.target == p.row
      && r.state.rr.drag.value.start.rowIndex == RowIndexAt(p.rows, p.headerHeight, p.pageY - p.cache.bodyTop)
    ensures r.state.rr.lastInsert == st.rr.lastInsert && r.state.rr.dropAllowed == st.rr.dropAllowed
  {
    if !st.rr.config.enable || p.excluded || p.row !in st.host.order then Step(st, [])
    else Step(StartDrag(st, p), [PreRowReorder(p.row)])
  }

  // ----------------------------------------------------------------- move

  /** `_moveTargetIntoPosition`: move the dragged row when the insertion point changed, re-cache, record it, emit. */
  function MoveTargetIntoPosition<V>(st: State<V>, ip: int, remeasured: Cache): (r: Step<V>)
    requires Wf(st) && st.rr.drag.Some? && CanPlace(|st.host.order|, st.rr.lastInsert, ip)
    requires |remeasured.middles| == |st.host.order|
    ensures Wf(r.state)
    ensures r.state.host.field == st.host.field && r.state.host.ids == st.host.ids
    ensures r.state.rr.config == st.rr.config && r.state.rr.dropAllowed == st.rr.dropAllowed
    ensures r.state.rr.clone == st.rr.clone && r.state.rr.timer == st.rr.timer && r.state.rr.pending == st.rr.pending
    ensures r.state.rr.drag.Some? && r.state.rr.drag.value.start == st.rr.drag.value.start
    ensures r.state.rr.drag.value.target == st.rr.drag.value.target
    ensures ip == st.rr.lastInsert ==> r == Step(st, [])
    ensures ip != st.rr.lastInsert ==>
      && r.state.rr.lastInsert == ip
      && r.events == [ReorderChanged(if ip > st.rr.lastInsert then After else Before, ip, st.rr.drag.value.target)]
      && Tracks(r.state.host.order, st.rr.drag.value.target, ip)
    ensures multiset(r.state.host.order) == multiset(st.host.order)
    ensures Without(r.state.host.order, st.rr.drag.value.target) == Without(st.host.order, st.rr.drag.value.target)
  {
    var d := st.rr.drag.value;
    var last := st.rr.lastInsert;
    if ip == last then Step(st, [])
    else
      var m := MoveTarget(st.host.order, d.target, last, ip);
      CoversPermutation(st.host.field, st.host.order, m.order);
      assert |m.order| == |st.host.order| by {
        assert |multiset(m.order)| == |multiset(st.host.order)|;
      }
      var d' := d.(cache := remeasured);
      var rr := st.rr.(lastInsert := ip, drag := Some(d'));
      Step(State(st.host.(order := m.order), rr),
           [ReorderChanged(m.placement.value, ip, d.target)])
  }

  /**
   * What a pointer move brings: the page position (from the touch point for
   * a touch event), whether it is a touch event, the clone's measured area,
   * scroll offsets, and the re-measured cache.
   */
  datatype Pointer = Pointer(
    pageX: int, pageY: int, touch: bool, cloneArea: Area, scrollLeft: int,
    bodyScrollTop: int, windowScrollTop: int, remeasured: Cache)

  /** The event's own `pageY`, which a touch event does not carry. */
  function RawPageY(e: Pointer): Option<int> {
    if e.touch then None else Some(e.pageY)
  }

  /**
   * `dropAllowed` after a move: kept unless cancelable; when cancelable,
   * whether the clone's area overlaps the body's area by at least a pixel.
   */
  function DropAllowedAfter<V>(rr: Instance<V>, d: Drag, cloneArea: Area): (r: bool)
    ensures !rr.config.cancelable ==> r == rr.dropAllowed
    ensures rr.config.cancelable && Proper(d.cache.bodyArea) && Proper(cloneArea) ==>
      (r <==> exists x, y :: Inside(d.cache.bodyArea, x, y) && Inside(cloneArea, x, y))
  {
    if !rr.config.cancelable then rr.dropAllowed
    else if Proper(d.cache.bodyArea) && Proper(cloneArea) then
      IntersectIffSharedPixel(d.cache.bodyArea, cloneArea);
      RectanglesIntersect(d.cache.bodyArea, cloneArea)
    else RectanglesIntersect(d.cache.bodyArea, cloneArea)
  }

  /** The insertion point of a move: the snap-back point when a cancelable drop is not allowed, else the midpoint search. */
  function MovePoint<V>(rr: Instance<V>, d: Drag, dropAllowed: bool, pageY: int): (ip: int)
    ensures rr.config.cancelable && !dropAllowed ==> ip == SnapBackPoint(d.start.rowIndex, rr.lastInsert)
    ensures !(rr.config.cancelable && !dropAllowed) ==>
      0 <= ip <= |d.cache.middles|
      && (forall k :: 0 <= k < ip ==> d.cache.middles[k] <= pageY - d.cache.bodyTop)
      && (ip < |d.cache.middles| ==> pageY - d.cache.bodyTop < d.cache.middles[ip])
  {
    if rr.config.cancelable && !dropAllowed then SnapBackPoint(d.start.rowIndex, rr.lastInsert)
    else InsertionPoint(d.cache.middles, pageY - d.cache.bodyTop)
  }

  /** The move handler's preconditions: a drag, a consistent re-measure, and an insertion point the code can act on. */
  predicate CanMove<V>(st: State<V>, e: Pointer) {
    && st.rr.drag.Some?
    && |e.remeasured.middles| == |st.host.order|
    && var d := st.rr.drag.value;
       CanPlace(|st.host.order|, st.rr.lastInsert,
         MovePoint(st.rr, d, DropAllowedAfter(st.rr, d, e.cloneArea), e.pageY))
  }

  /**
   * `_mouseMove`: position the clone, recompute `dropAllowed` when
   * cancelable, move the row to the insertion point (or back when the drop
   * is not allowed), then decide the autoscroll.
   */
  function MouseMove<V>(st: State<V>, e: Pointer): (r: Step<V>)
    requires Wf(st) && CanMove(st, e)
    ensures Wf(r.state)
    ensures r.state.host.field == st.host.field && r.state.host.ids == st.host.ids
    ensures multiset(r.state.host.order) == multiset(st.host.order)
    ensures var d := st.rr.drag.value;
      Without(r.state.host.order, d.target) == Without(st.host.order, d.target)
    ensures var d := st.rr.drag.value;
      r.state.rr.dropAllowed == DropAllowedAfter(st.rr, d, e.cloneArea)
      && r.state.rr.lastInsert == MovePoint(st.rr, d, r.state.rr.dropAllowed, e.pageY)
    ensures r.state.rr.drag.Some? && r.state.rr.drag.value.start == st.rr.drag.value.start
    ensures r.state.rr.drag.value.target == st.rr.drag.value.target
    ensures r.events != [] ==>
      && r.events == [ReorderChanged(if r.state.rr.lastInsert > st.rr.lastInsert then After else Before,
                                     r.state.rr.lastInsert, st.rr.drag.value.target)]
      && Tracks(r.state.host.order, st.rr.drag.value.target, r.state.rr.lastInsert)
    ensures r.state.rr.config == st.rr.config && r.state.rr.pending == st.rr.pending
    ensures var d := st.rr.drag.value;
      r.state.rr.clone == Some(ClonePosition(d.start.anchor, e.pageX, e.pageY, st.rr.config.snapX, e.scrollLeft,
                                             d.cloneOuterHeight, d.cache.documentOuterHeight))
    ensures r.state.rr.timer ==
      Decide(st.rr.timer, RawPageY(e), e.bodyScrollTop, e.windowScrollTop, st.rr.drag.value.scroll).timer
    ensures |r.events| <= 1
    ensures r.events == [] <==> r.state.rr.lastInsert == st.rr.lastInsert
  {
    var d := st.rr.drag.value;
    var clone := ClonePosition(d.start.anchor, e.pageX, e.pageY, st.rr.config.snapX, e.scrollLeft,
                               d.cloneOuterHeight, d.cache.documentOuterHeight);
    var allowed := DropAllowedAfter(st.rr, d, e.cloneArea);
    var ip := MovePoint(st.rr, d, allowed, e.pageY);
    var s1 := State(st.host, st.rr.(clone := Some(clone), dropAllowed := allowed));
    var moved := MoveTargetIntoPosition(s1, ip, e.remeasured);
    var scroll := Decide(moved.state.rr.timer, RawPageY(e), e.bodyScrollTop, e.windowScrollTop, d.scroll);
    Step(moved.state.(rr := moved.state.rr.(timer := scroll.timer)), moved.events)
  }

  // --------------------------------------------------------- end of a drag

  /** `_cleanupDragging`: the clone goes, the handlers go, the scroll interval is cleared. */
  function Cleanup<V>(st: State<V>): (r: State<V>)
    requires Wf(st)
    ensures Wf(r) && r.host == st.host
    ensures r.rr.drag.None? && r.rr.clone.None? && r.rr.timer == Stopped
    ensures r.rr.config == st.rr.config && r.rr.lastInsert == st.rr.lastInsert
    ensures r.rr.dropAllowed == st.rr.dropAllowed && r.rr.pending == st.rr.pending
  {
    State(st.host, st.rr.(drag := None, clone := None, timer := Stopped))
  }

  /** A cancel needs a row under the pointer at the press; the code does not handle -1. */
  predicate CanCancel<V>(st: State<V>) {
    st.rr.drag.Some? && st.rr.drag.value.start.rowIndex >= 0
  }

  /** The move back to the snap-back point that `_cancel` makes. */
  function SnapBack<V>(st: State<V>, remeasured: Cache): (r: Step<V>)
    requires Wf(st) && CanCancel(st) && |remeasured.middles| == |st.host.order|
    ensures Wf(r.state)
    ensures r.state.host.field == st.host.field && r.state.host.ids == st.host.ids
    ensures multiset(r.state.host.order) == multiset(st.host.order)
    ensures Without(r.state.host.order, st.rr.drag.value.target) == Without(st.host.order, st.rr.drag.value.target)
    ensures r.state.rr.lastInsert == SnapBackPoint(st.rr.drag.value.start.rowIndex, st.rr.lastInsert)
    ensures r.state.rr.config == st.rr.config && r.state.rr.pending == st.rr.pending
    ensures r.state.rr.dropAllowed == st.rr.dropAllowed
    ensures |r.events| <= 1 && forall k :: 0 <= k < |r.events| ==> r.events[k].ReorderChanged?
  {
    MoveTargetIntoPosition(st, SnapBackPoint(st.rr.drag.value.start.rowIndex, st.rr.lastInsert), remeasured)
  }

  /**
   * `_cancel`: move the row to the snap-back point, clean up and emit
   * `row-reorder-canceled` with the start row index. No row data is written.
   */
  function Cancel<V>(st: State<V>, remeasured: Cache): (r: Step<V>)
    requires Wf(st) && CanCancel(st) && |remeasured.middles| == |st.host.order|
    ensures Wf(r.state)
    ensures r.state.host.field == st.host.field && r.state.host.ids == st.host.ids
    ensures multiset(r.state.host.order) == multiset(st.host.order)
    ensures Without(r.state.host.order, st.rr.drag.value.target) == Without(st.host.order, st.rr.drag.value.target)
    ensures r.state.rr.drag.None? && r.state.rr.clone.None? && r.state.rr.timer == Stopped
    ensures r.state.rr.lastInsert == SnapBackPoint(st.rr.drag.value.start.rowIndex, st.rr.lastInsert)
    ensures r.state.rr.config == st.rr.config && r.state.rr.pending == st.rr.pending
    ensures r.state.rr.dropAllowed == st.rr.dropAllowed
    ensures 1 <= |r.events| <= 2 && r.events[|r.events| - 1] == Canceled(st.rr.drag.value.start.rowIndex)
    ensures forall k :: 0 <= k < |r.events| ==> !r.events[k].RowReorder? && !r.events[k].RowReordered?
  {
    var moved := SnapBack(st, remeasured);
    var events := moved.events + [Canceled(st.rr.drag.value.start.rowIndex)];
    assert forall k :: 0 <= k < |events| ==> events[k].ReorderChanged? || events[k].Canceled?;
    Step(Cleanup(moved.state), events)
  }

  /** ESC (key code 27) cancels a cancelable drag; any other key, or no drag, changes nothing. */
  function KeyUp<V>(st: State<V>, key: int, remeasured: Cache): (r: Step<V>)
    requires Wf(st) && |remeasured.middles| == |st.host.order|
    requires st.rr.drag.Some? && st.rr.config.cancelable && key == 27 ==> CanCancel(st)
    ensures Wf(r.state) && r.state.host.field == st.host.field
    ensures r.state.rr.drag.None? <==> st.rr.drag.None? || (st.rr.config.cancelable && key == 27)
    ensures !(st.rr.drag.Some? && st.rr.config.cancelable && key == 27) ==> r == Step(st, [])
    ensures st.rr.drag.Some? && st.rr.config.cancelable && key == 27 ==> r == Cancel(st, remeasured)
  {
    if st.rr.drag.Some? && st.rr.config.cancelable && key == 27 then Cancel(st, remeasured)
    else Step(st, [])
  }

  /**
   * The `update()` closure: when `update` is on, write each record's new
   * value in turn and emit `row-reordered`; otherwise write nothing.
   */
  function Update<V>(st: State<V>, sub: Submission<V>): (r: Step<V>)
    requires forall j :: 0 <= j < |sub.diff| ==> sub.diff[j].node in st.host.field
    ensures r.state.host.order == st.host.order && r.state.host.ids == st.host.ids && r.state.rr == st.rr
    ensures !st.rr.config.update ==> r == Step(st, [])
    ensures st.rr.config.update ==> r.events == [RowReordered(sub.diff, sub.values, sub.trigger)]
    ensures r.state.host.field.Keys == st.host.field.Keys
    ensures forall x :: x in st.host.field && (!st.rr.config.update || forall j :: 0 <= j < |sub.diff| ==> sub.diff[j].node != x) ==>
      r.state.host.field[x] == st.host.field[x]
    ensures st.rr.config.update ==> forall j ::
      (0 <= j < |sub.diff| && forall j2 :: j < j2 < |sub.diff| ==> sub.diff[j2].node != sub.diff[j].node)
      ==> r.state.host.field[sub.diff[j].node] == sub.diff[j].newData
  {
    if st.rr.config.update then
      Step(st.(host := st.host.(field := ApplyDiff(st.host.field, sub.diff))),
           [RowReordered(sub.diff, sub.values, sub.trigger)])
    else Step(st, [])
  }

  /**
   * `includes(false)` over the `row-reorder` listeners' results: only a
   * strict `false` vetoes the drop; `undefined`, `null`, `0` or `""` do not.
   */
  predicate Vetoed(replies: seq<Value>): (r: bool)
    ensures r <==> exists i :: 0 <= i < |replies| && replies[i] == Bool(false)
    ensures r ==> |replies| > 0
  {
    Bool(false) in replies
  }

  /** Listeners that return nothing, or any falsy value other than `false`, never veto. */
  lemma FalsyRepliesDoNotVeto(replies: seq<Value>)
    requires forall i :: 0 <= i < |replies| ==> !Truthy(replies[i]) && replies[i] != Bool(false)
    ensures !Vetoed(replies)
  {
  }

  /** The drop's diff, comparing the start order with the current one. */
  function DropDiff<V>(st: State<V>): seq<Diff<V>>
    requires Wf(st) && st.rr.drag.Some?
  {
    BuildDiff(st.rr.drag.value.start.nodes, st.host.order, st.host.field)
  }

  /** The submission a drop hands on: its diff, its id map and the dragged row. */
  function DropSubmission<V>(st: State<V>): Submission<V>
    requires Wf(st) && st.rr.drag.Some?
  {
    var diff := DropDiff(st);
    Submission(diff, IdValues(diff, st.host.ids), st.rr.drag.value.target)
  }

  /** A release needs a cancellable drag whenever it cancels, and no Editor commit already in flight. */
  predicate CanRelease<V>(st: State<V>, replies: seq<Value>) {
    && st.rr.drag.Some?
    && ((!st.rr.dropAllowed || Vetoed(replies)) ==> CanCancel(st))
    && (st.rr.config.editor ==> st.rr.pending.None?)
  }

  /**
   * The accepted drop, after `row-reorder` was emitted and not vetoed:
   * clean up, then either hand the commit to the Editor (clearing
   * `enable`) or run `update()` at once.
   */
  function Commit<V>(st: State<V>, sub: Submission<V>): (r: Step<V>)
    requires Wf(st) && (st.rr.config.editor ==> st.rr.pending.None?)
    requires forall j :: 0 <= j < |sub.diff| ==> sub.diff[j].node in st.host.field
    ensures Wf(r.state) && r.state.host.order == st.host.order
    ensures r.state.rr.drag.None? && r.state.rr.clone.None? && r.state.rr.timer == Stopped
    ensures st.rr.config.editor ==>
      && r.state.host == st.host && r.events == []
      && !r.state.rr.config.enable && r.state.rr.pending == Some(sub)
    ensures !st.rr.config.editor ==>
      r.state.rr.config == st.rr.config && r.state.rr.pending == st.rr.pending
      && r == Update(Cleanup(st), sub)
  {
    var s1 := Cleanup(st);
    if st.rr.config.editor then
      Step(s1.(rr := s1.rr.(config := s1.rr.config.(enable := false), pending := Some(sub))), [])
    else
      Update(s1, sub)
  }

  /**
   * `_mouseUp`: a disallowed drop cancels; otherwise the diff and id map
   * are built and `row-reorder` is emitted; a veto cancels, else the drop
   * is committed.
   */
  function MouseUp<V>(st: State<V>, replies: seq<Value>, remeasured: Cache): (r: Step<V>)
    requires Wf(st) && CanRelease(st, replies) && |remeasured.middles| == |st.host.order|
    ensures Wf(r.state)
    ensures r.state.rr.drag.None? && r.state.rr.clone.None? && r.state.rr.timer == Stopped
    ensures !st.rr.dropAllowed ==> r == Cancel(st, remeasured)
    ensures st.rr.dropAllowed ==> |r.events| >= 1 && r.events[0] == RowReorder(
      DropSubmission(st).diff, DropSubmission(st).values, st.rr.drag.value.target)
    ensures !st.rr.dropAllowed || Vetoed(replies) ==> r.state.host.field == st.host.field
    ensures st.rr.dropAllowed && Vetoed(replies) ==>
      && r.state == Cancel(st, remeasured).state
      && r.events == [RowReorder(DropSubmission(st).diff, DropSubmission(st).values, st.rr.drag.value.target)]
                     + Cancel(st, remeasured).events
    ensures st.rr.dropAllowed && !Vetoed(replies) ==>
      && r.state == Commit(st, DropSubmission(st)).state
      && r.events == [RowReorder(DropSubmission(st).diff, DropSubmission(st).values, st.rr.drag.value.target)]
                     + Commit(st, DropSubmission(st)).events
    ensures st.rr.dropAllowed && !Vetoed(replies) ==> r.state.host.order == st.host.order
    ensures st.rr.dropAllowed && !Vetoed(replies) && st.rr.config.editor ==>
      r.state.host == st.host && !r.state.rr.config.enable && r.state.rr.pending == Some(DropSubmission(st))
    ensures st.rr.dropAllowed && !Vetoed(replies) && !st.rr.config.editor && !st.rr.config.update ==>
      r.state.host == st.host
    ensures st.rr.dropAllowed && !Vetoed(replies) && !st.rr.config.editor && st.rr.config.update ==>
      && r.state.host.field.Keys == st.host.field.Keys
      && forall i :: 0 <= i < |st.host.order| ==>
           r.state.host.field[st.host.order[i]] == st.host.field[st.rr.drag.value.start.nodes[i]]
  {
    if !st.rr.dropAllowed then Cancel(st, remeasured)
    else
      var sub := DropSubmission(st);
      var d := st.rr.drag.value;
      var ev := RowReorder(sub.diff, sub.values, sub.trigger);
      if Vetoed(replies) then
        var c := Cancel(st, remeasured);
        Step(c.state, [ev] + c.events)
      else
        var c := Commit(st, sub);
        DataSwap(d.start.nodes, st.host.order, st.host.field);
        Step(c.state, [ev] + c.events)
  }

  /** How an Editor submission ended. */
  datatype Outcome = Succeeded | Failed | Cancelled

  /**
   * The Editor's hooks: `submitSuccess` runs `update()`; `submitComplete`
   * or `preSubmitCancelled` sets `enable` back on. Failure writes nothing.
   */
  function EditorDone<V>(st: State<V>, outcome: Outcome): (r: Step<V>)
    requires Wf(st) && st.rr.pending.Some?
    ensures Wf(r.state)
    ensures r.state.rr.config.enable && r.state.rr.pending.None?
    ensures r.state.host.order == st.host.order
    ensures outcome != Succeeded ==> r.state.host == st.host && r.events == []
    ensures outcome == Succeeded ==> r.state.host == Update(st, st.rr.pending.value).state.host
    ensures outcome == Succeeded ==> r.events == Update(st, st.rr.pending.value).events
  {
    var sub := st.rr.pending.value;
    var s1 := if outcome == Succeeded then Update(st, sub) else Step(st, []);
    var rr := s1.state.rr.(config := s1.state.rr.config.(enable := true), pending := None);
    Step(s1.state.(rr := rr), s1.events)
  }

  // ----------------------------------------------------------- properties

  /**
   * When the cancel restores the start order: the row pressed is the one
   * under the pointer, and either nothing moved or the row is not parked
   * one slot left of `lastInsert` while `lastInsert` equals its start index.
   */
  lemma CancelRestoresOrder<V>(st: State<V>, remeasured: Cache)
    requires Wf(st) && CanCancel(st) && |remeasured.middles| == |st.host.order|
    requires var d := st.rr.drag.value;
      d.start.nodes[d.start.rowIndex] == d.target
      && (st.host.order == d.start.nodes
          || d.start.rowIndex != st.rr.lastInsert
          || IndexOf(st.host.order, d.target) == st.rr.lastInsert)
    ensures Cancel(st, remeasured).state.host.order == st.rr.drag.value.start.nodes
  {
    var d := st.rr.drag.value;
    SnapBackRestores(d.start.nodes, st.host.order, d.target, d.start.rowIndex, st.rr.lastInsert);
  }

  /**
   * A drag that has not moved the row cancels back to where it began, with
   * no data written, provided the row under the pointer at the press was
   * the dragged row: otherwise the snap-back anchors on another row.
   */
  lemma UnmovedCancelIsNoOp<V>(st: State<V>, remeasured: Cache)
    requires Wf(st) && CanCancel(st) && |remeasured.middles| == |st.host.order|
    requires st.host.order == st.rr.drag.value.start.nodes
    requires st.host.order[st.rr.drag.value.start.rowIndex] == st.rr.drag.value.target
    ensures Cancel(st, remeasured).state.host == st.host
  {
    CancelRestoresOrder(st, remeasured);
  }

  /**
   * On a cancelable drag, a move whose clone leaves the body snaps the row
   * back to its start order under the same conditions as a cancel.
   */
  lemma DisallowedMoveSnapsBack<V>(st: State<V>, e: Pointer)
    requires Wf(st) && CanMove(st, e) && CanCancel(st)
    requires st.rr.config.cancelable && !RectanglesIntersect(st.rr.drag.value.cache.bodyArea, e.cloneArea)
    requires var d := st.rr.drag.value;
      d.start.nodes[d.start.rowIndex] == d.target
      && (st.host.order == d.start.nodes
          || d.start.rowIndex != st.rr.lastInsert
          || IndexOf(st.host.order, d.target) == st.rr.lastInsert)
    ensures MouseMove(st, e).state.host.order == st.rr.drag.value.start.nodes
    ensures !MouseMove(st, e).state.rr.dropAllowed
  {
    var d := st.rr.drag.value;
    SnapBackRestores(d.start.nodes, st.host.order, d.target, d.start.rowIndex, st.rr.lastInsert);
  }

  /** ESC on a cancelable drag restores the start order under the conditions of `CancelRestoresOrder`. */
  lemma EscRestoresOrder<V>(st: State<V>, remeasured: Cache)
    requires Wf(st) && CanCancel(st) && st.rr.config.cancelable && |remeasured.middles| == |st.host.order|
    requires var d := st.rr.drag.value;
      d.start.nodes[d.start.rowIndex] == d.target
      && (st.host.order == d.start.nodes
          || d.start.rowIndex != st.rr.lastInsert
          || IndexOf(st.host.order, d.target) == st.rr.lastInsert)
    ensures var r := KeyUp(st, 27, remeasured);
      && r.state.host.order == st.rr.drag.value.start.nodes
      && r.state.host.field == st.host.field
      && r.events[|r.events| - 1] == Canceled(st.rr.drag.value.start.rowIndex)
  {
    CancelRestoresOrder(st, remeasured);
  }

  /**
   * A listener veto undoes the drag like ESC does: under the conditions of
   * `CancelRestoresOrder` the page returns to its start order.
   */
  lemma VetoRestoresOrder<V>(st: State<V>, replies: seq<Value>, remeasured: Cache)
    requires Wf(st) && CanRelease(st, replies) && |remeasured.middles| == |st.host.order|
    requires st.rr.dropAllowed && Vetoed(replies)
    requires var d := st.rr.drag.value;
      d.start.nodes[d.start.rowIndex] == d.target
      && (st.host.order == d.start.nodes
          || d.start.rowIndex != st.rr.lastInsert
          || IndexOf(st.host.order, d.target) == st.rr.lastInsert)
    ensures MouseUp(st, replies, remeasured).state.host.order == st.rr.drag.value.start.nodes
    ensures MouseUp(st, replies, remeasured).state.host.field == st.host.field
  {
    CancelRestoresOrder(st, remeasured);
  }

  /** A vetoed or disallowed drop writes no row data and ends the drag. */
  lemma AbortWritesNothing<V>(st: State<V>, replies: seq<Value>, remeasured: Cache)
    requires Wf(st) && CanRelease(st, replies) && |remeasured.middles| == |st.host.order|
    requires !st.rr.dropAllowed || Vetoed(replies)
    ensures MouseUp(st, replies, remeasured).state.host.field == st.host.field
    ensures MouseUp(st, replies, remeasured).state.rr.drag.None?
    ensures var ev := MouseUp(st, replies, remeasured).events;
      ev[|ev| - 1] == Canceled(st.rr.drag.value.start.rowIndex)
      && forall k :: 0 <= k < |ev| ==> !ev[k].RowReordered?
  {
    var c := Cancel(st, remeasured);
    if st.rr.dropAllowed {
      var sub := DropSubmission(st);
      var ev := [RowReorder(sub.diff, sub.values, sub.trigger)] + c.events;
      assert MouseUp(st, replies, remeasured) == Step(c.state, ev);
      assert forall k :: 0 < k < |ev| ==> ev[k] == c.events[k - 1];
    }
  }

  /**
   * Through the Editor: a release hands the commit over with `enable`
   * off, and a successful submission then performs the same data swap
   * as an immediate update.
   */
  lemma EditorSuccessSwapsData<V>(st: State<V>, replies: seq<Value>, remeasured: Cache)
    requires Wf(st) && CanRelease(st, replies) && |remeasured.middles| == |st.host.order|
    requires st.rr.dropAllowed && !Vetoed(replies) && st.rr.config.editor && st.rr.config.update
    ensures var s1 := MouseUp(st, replies, remeasured).state;
      !s1.rr.config.enable && s1.host == st.host
    ensures var s2 := EditorDone(MouseUp(st, replies, remeasured).state, Succeeded).state;
      && s2.rr.config.enable
      && s2.host.order == st.host.order
      && forall i :: 0 <= i < |st.host.order| ==>
           s2.host.field[st.host.order[i]] == st.host.field[st.rr.drag.value.start.nodes[i]]
  {
    var d := st.rr.drag.value;
    DataSwap(d.start.nodes, st.host.order, st.host.field);
  }

  /** While an Editor commit is in flight `enable` is off, so a press is ignored. */
  lemma PressIgnoredWhileSubmitting<V>(st: State<V>, replies: seq<Value>, remeasured: Cache, p: Press)
    requires Wf(st) && CanRelease(st, replies) && |remeasured.middles| == |st.host.order|
    requires st.rr.dropAllowed && !Vetoed(replies) && st.rr.config.editor
    requires Measures(p, |st.host.order|)
    ensures var s1 := MouseUp(st, replies, remeasured).state;
      MouseDown(s1, p) == Step(s1, [])
  {
  }

  /**
   * A drop that leaves the order as it started still commits: with
   * `update` on and no Editor, `row-reorder` and then `row-reordered` are
   * emitted with an empty diff and an empty id map, and no data is written.
   */
  lemma EmptyDropStillEmitsReordered<V>(st: State<V>, replies: seq<Value>, remeasured: Cache)
    requires Wf(st) && CanRelease(st, replies) && |remeasured.middles| == |st.host.order|
    requires st.rr.dropAllowed && !Vetoed(replies) && !st.rr.config.editor && st.rr.config.update
    requires st.host.order == st.rr.drag.value.start.nodes
    ensures var r := MouseUp(st, replies, remeasured);
      var t := st.rr.drag.value.target;
      r.events == [RowReorder([], map[], t), RowReordered([], map[], t)]
      && r.state.host == st.host
  {
    SameOrderNoDiff(st.host.order, st.host.field, st.host.ids);
  }

  // ------------------------------------------------------------ construct

  /** A table and the RowReorder instance attached to it (`settings.rowreorder`), if any. */
  datatype Table<V> = Table(host: Host<V>, rowReorder: Option<Instance<V>>)

  /** A new instance: `lastInsert` 0, drop allowed, no drag, no clone, no interval. */
  function Fresh<V>(config: Config): Instance<V> {
    Instance(config, 0, true, None, None, Stopped, None)
  }

  /**
   * The constructor: on a table that already has an instance nothing
   * happens; otherwise a fresh instance with the merged configuration is attached.
   */
  function Construct<V>(t: Table<V>, hostDefaults: Setting, opts: Options): (r: Table<V>)
    ensures r.host == t.host && r.rowReorder.Some?
    ensures t.rowReorder.Some? ==> r == t
    ensures t.rowReorder.None? ==>
      var rr := r.rowReorder.value;
      && rr.config == Resolve(Merged(hostDefaults, opts))
      && rr.lastInsert == 0 && rr.dropAllowed
      && rr.drag.None? && rr.clone.None? && rr.timer == Stopped && rr.pending.None?
  {
    if t.rowReorder.Some? then t
    else Table(t.host, Some(Fresh(Resolve(Merged(hostDefaults, opts)))))
  }

  /** Constructing twice is constructing once: the second call finds the first instance. */
  lemma ConstructOnce<V>(t: Table<V>, h1: Setting, o1: Options, h2: Setting, o2: Options)
    ensures Construct(Construct(t, h1, o1), h2, o2) == Construct(t, h1, o1)
  {
  }

  /** A freshly attached instance on a well-formed page is well formed. */
  lemma ConstructWf<V>(t: Table<V>, hostDefaults: Setting, opts: Options)
    requires HostWf(t.host) && t.rowReorder.None?
    ensures Wf(State(t.host, Construct(t, hostDefaults, opts).rowReorder.value))
  {
  }
}

=== FILE: diff_commit.dfy ===
/**
 * The drop's data diff and the "data swap" commit (js/RowReorder.ts:17-19,
 * 480-511, 536-559): each row whose slot changed takes the reorder field
 * value of the row that occupied that slot when the drag started.
 */
module DiffCommit {
  import opened Common
  import opened RowOrder

  /**
   * One changed slot: the row now there, its field value before the
   * commit, the value it will take, its new slot and its slot at drag start.
   */
  datatype Diff<V> = Diff(node: RowId, oldData: V, newData: V, newPosition: nat, oldPosition: int)

  /** Every row of the order has a value for the reorder field. */
  ghost predicate Covers<V>(field: map<RowId, V>, s: seq<RowId>) {
    forall k :: 0 <= k < |s| ==> s[k] in field
  }

  /** What the diff loop reads: start and end orders of one page, every row with a field value. */
  ghost predicate Comparable<V>(start: seq<RowId>, end: seq<RowId>, field: map<RowId, V>) {
    |start| == |end| && Covers(field, start) && Covers(field, end)
  }

  /** What each record holds: the row now in slot `i`, its value, the start row's value, both slots. */
  ghost predicate RecordOf<V>(start: seq<RowId>, end: seq<RowId>, field: map<RowId, V>, i: nat, d: Diff<V>)
    requires Comparable(start, end, field) && i < |start|
  {
    && d.node == end[i]
    && d.oldData == field[end[i]]
    && d.newData == field[start[i]]
    && d.newPosition == i
    && d.oldPosition == IndexOf(start, end[i])
  }

  /** The record the loop pushes for slot `i`. */
  function RecordAt<V>(start: seq<RowId>, end: seq<RowId>, field: map<RowId, V>, i: nat): Diff<V>
    requires Comparable(start, end, field) && i < |start|
  {
    Diff(end[i], field[end[i]], field[start[i]], i, IndexOf(start, end[i]))
  }

  /** The diff loop from slot `i` on. */
  function DiffFrom<V>(start: seq<RowId>, end: seq<RowId>, field: map<RowId, V>, i: nat): seq<Diff<V>>
    requires Comparable(start, end, field) && i <= |start|
    decreases |start| - i
  {
    if i == |start| then []
    else if start[i] != end[i] then [RecordAt(start, end, field, i)] + DiffFrom(start, end, field, i + 1)
    else DiffFrom(start, end, field, i + 1)
  }

  /** Each record from slot `i` on is the loop's record for a changed slot at or after `i`. */
  lemma {:induction false} DiffFromRecords<V>(start: seq<RowId>, end: seq<RowId>, field: map<RowId, V>, i: nat)
    requires Comparable(start, end, field) && i <= |start|
    ensures forall j :: 0 <= j < |DiffFrom(start, end, field, i)| ==>
      var x := DiffFrom(start, end, field, i)[j];
      i <= x.newPosition < |start|
      && start[x.newPosition] != end[x.newPosition]
      && x == RecordAt(start, end, field, x.newPosition)
    decreases |start| - i
  {
    if i < |start| {
      DiffFromRecords(start, end, field, i + 1);
      var rest := DiffFrom(start, end, field, i + 1);
      if start[i] == end[i] {
        assert DiffFrom(start, end, field, i) == rest;
      } else {
        var r := [RecordAt(start, end, field, i)] + rest;
        assert r == DiffFrom(start, end, field, i);
        assert r[0].newPosition == i;
        forall j | 0 <= j < |r| ensures
          i <= r[j].newPosition < |start|
          && start[r[j].newPosition] != end[r[j].newPosition]
          && r[j] == RecordAt(start, end, field, r[j].newPosition)
        {
          if j > 0 { assert r[j] == rest[j - 1]; }
        }
      }
    }
  }

  /** The records from slot `i` on come in strictly increasing slot order. */
  lemma {:induction false} DiffFromOrdered<V>(start: seq<RowId>, end: seq<RowId>, field: map<RowId, V>, i: nat)
    requires Comparable(start, end, field) && i <= |start|
    ensures forall j1, j2 :: 0 <= j1 < j2 < |DiffFrom(start, end, field, i)| ==>
      DiffFrom(start, end, field, i)[j1].newPosition < DiffFrom(start, end, field, i)[j2].newPosition
    decreases |start| - i
  {
    if i < |start| {
      DiffFromOrdered(start, end, field, i + 1);
      DiffFromRecords(start, end, field, i + 1);
      var rest := DiffFrom(start, end, field, i + 1);
      if start[i] == end[i] {
        assert DiffFrom(start, end, field, i) == rest;
      } else {
        var r := [RecordAt(start, end, field, i)] + rest;
        assert r == DiffFrom(start, end, field, i);
        assert r[0].newPosition == i;
        forall j1, j2 | 0 <= j1 < j2 < |r| ensures r[j1].newPosition < r[j2].newPosition {
          assert r[j2] == rest[j2 - 1];
          assert i + 1 <= rest[j2 - 1].newPosition;
          if j1 > 0 { assert r[j1] == rest[j1 - 1]; }
        }
      }
    }
  }

  /** Some record of `r` is for slot `k`. */
  ghost predicate HasRecordFor<V>(r: seq<Diff<V>>, k: int) {
    exists j :: 0 <= j < |r| && r[j].newPosition == k
  }

  /** Every changed slot from `i` on has a record. */
  lemma {:induction false} DiffFromComplete<V>(start: seq<RowId>, end: seq<RowId>, field: map<RowId, V>, i: nat)
    requires Comparable(start, end, field) && i <= |start|
    ensures forall k :: i <= k < |start| && start[k] != end[k] ==> HasRecordFor(DiffFrom(start, end, field, i), k)
    decreases |start| - i
  {
    if i < |start| {
      DiffFromComplete(start, end, field, i + 1);
      var rest := DiffFrom(start, end, field, i + 1);
      var r := DiffFrom(start, end, field, i);
      forall k | i <= k < |start| && start[k] != end[k] ensures HasRecordFor(r, k) {
        if start[i] == end[i] {
          assert r == rest && k != i;
        } else {
          assert r == [RecordAt(start, end, field, i)] + rest;
          if k == i {
            assert r[0].newPosition == k;
          } else {
            assert HasRecordFor(rest, k);
            var j :| 0 <= j < |rest| && rest[j].newPosition == k;
            assert r[j + 1].newPosition == k;
          }
        }
      }
    }
  }

  /**
   * The diff of `_mouseUp`: one record per slot whose row changed, in slot
   * order, comparing the start order with the end order.
   */
  function BuildDiff<V>(start: seq<RowId>, end: seq<RowId>, field: map<RowId, V>): (r: seq<Diff<V>>)
    requires Comparable(start, end, field)
    ensures forall j :: 0 <= j < |r| ==>
      r[j].newPosition < |start|
      && start[r[j].newPosition] != end[r[j].newPosition]
      && RecordOf(start, end, field, r[j].newPosition, r[j])
    ensures forall j1, j2 :: 0 <= j1 < j2 < |r| ==> r[j1].newPosition < r[j2].newPosition
    ensures forall k :: 0 <= k < |start| && start[k] != end[k] ==>
      exists j :: 0 <= j < |r| && r[j].newPosition == k
  {
    DiffFromRecords(start, end, field, 0);
    DiffFromOrdered(start, end, field, 0);
    DiffFromComplete(start, end, field, 0);
    DiffFrom(start, end, field, 0)
  }

  lemma {:induction false} DiffFromSameOrder<V>(s: seq<RowId>, field: map<RowId, V>, i: nat)
    requires Comparable(s, s, field) && i <= |s|
    ensures DiffFrom(s, s, field, i) == []
    decreases |s| - i
  {
    if i < |s| {
      DiffFromSameOrder(s, field, i + 1);
    }
  }

  /** The diff is empty exactly when the row was dropped back into the start order. */
  lemma DiffEmptyIffSameOrder<V>(start: seq<RowId>, end: seq<RowId>, field: map<RowId, V>)
    requires Comparable(start, end, field)
    ensures BuildDiff(start, end, field) == [] <==> start == end
  {
    var d := BuildDiff(start, end, field);
    if start != end {
      var k :| 0 <= k < |start| && start[k] != end[k];
      var j :| 0 <= j < |d| && d[j].newPosition == k;
    } else {
      DiffFromSameOrder(start, field, 0);
    }
  }

  /** When the end order is a permutation of the start order, `oldPosition` is the row's start slot. */
  lemma OldPositionIsStartSlot<V>(start: seq<RowId>, end: seq<RowId>, field: map<RowId, V>)
    requires Comparable(start, end, field) && multiset(start) == multiset(end)
    ensures var d := BuildDiff(start, end, field);
      forall j :: 0 <= j < |d| ==>
        0 <= d[j].oldPosition < |start| && start[d[j].oldPosition] == d[j].node
  {
    var d := BuildDiff(start, end, field);
    forall j | 0 <= j < |d|
      ensures 0 <= d[j].oldPosition < |start| && start[d[j].oldPosition] == d[j].node
    {
      var i := d[j].newPosition;
      assert end[i] in multiset(end);
      assert end[i] in start;
    }
  }

  /** For distinct end orders no two records name the same row. */
  lemma DiffNodesDistinct<V>(start: seq<RowId>, end: seq<RowId>, field: map<RowId, V>)
    requires Comparable(start, end, field) && Distinct(end)
    ensures var d := BuildDiff(start, end, field);
      forall j1, j2 :: 0 <= j1 < j2 < |d| ==> d[j1].node != d[j2].node
  {
  }

  /**
   * The `update()` loop: `setDataFn(rowData, newData)` for each record in
   * turn; when two records name one row the later write wins.
   */
  function ApplyDiff<V>(field: map<RowId, V>, d: seq<Diff<V>>): (f: map<RowId, V>)
    requires forall j :: 0 <= j < |d| ==> d[j].node in field
    ensures f.Keys == field.Keys
    ensures forall x :: x in field && (forall j :: 0 <= j < |d| ==> d[j].node != x) ==> f[x] == field[x]
    ensures forall j :: 0 <= j < |d| && (forall j2 :: j < j2 < |d| ==> d[j2].node != d[j].node) ==>
      f[d[j].node] == d[j].newData
    decreases |d|
  {
    if |d| == 0 then field
    else
      var rest := d[1..];
      assert forall j :: 0 < j < |d| ==> d[j] == rest[j - 1];
      ApplyDiff(field[d[0].node := d[0].newData], rest)
  }

  /** The data swap at one slot. */
  lemma DataSwapAt<V>(start: seq<RowId>, end: seq<RowId>, field: map<RowId, V>, i: nat)
    requires Comparable(start, end, field) && Distinct(end) && i < |end|
    ensures ApplyDiff(field, BuildDiff(start, end, field))[end[i]] == field[start[i]]
  {
    var d := BuildDiff(start, end, field);
    var f := ApplyDiff(field, d);
    if start[i] != end[i] {
      var j :| 0 <= j < |d| && d[j].newPosition == i;
      assert d[j].node == end[i] && d[j].newData == field[start[i]];
      forall j2 | j < j2 < |d| ensures d[j2].node != d[j].node {
        var k := d[j2].newPosition;
        assert i < k < |end| && d[j2].node == end[k];
      }
      assert f[d[j].node] == d[j].newData;
    } else {
      forall j | 0 <= j < |d| ensures d[j].node != end[i] {
        var k := d[j].newPosition;
        assert k != i && d[j].node == end[k];
      }
      assert f[end[i]] == field[end[i]];
    }
  }

  /**
   * The data swap: after the commit the row in each slot holds the field
   * value that the slot's start row held before the drag.
   */
  lemma DataSwap<V>(start: seq<RowId>, end: seq<RowId>, field: map<RowId, V>)
    requires Comparable(start, end, field) && Distinct(end)
    ensures var f := ApplyDiff(field, BuildDiff(start, end, field));
      forall i :: 0 <= i < |end| ==> f[end[i]] == field[start[i]]
  {
    forall i | 0 <= i < |end| ensures ApplyDiff(field, BuildDiff(start, end, field))[end[i]] == field[start[i]] {
      DataSwapAt(start, end, field, i);
    }
  }

  /** The row has an identifier (`row.id()` is a non-empty string). */
  predicate HasId(ids: map<RowId, string>, x: RowId) {
    x in ids && ids[x] != ""
  }

  /**
   * The `idDiff[id] = newData` writes of the diff loop, from `m` on: each
   * record of a row with an identifier writes its new value under that id.
   */
  function IdValuesInto<V>(m: map<string, V>, d: seq<Diff<V>>, ids: map<RowId, string>): map<string, V>
    decreases |d|
  {
    if |d| == 0 then m
    else
      var m' := if HasId(ids, d[0].node) then m[ids[d[0].node] := d[0].newData] else m;
      IdValuesInto(m', d[1..], ids)
  }

  /** The id written by record `j`, if its row has one. */
  predicate WritesId<V>(d: seq<Diff<V>>, ids: map<RowId, string>, j: int, s: string) {
    0 <= j < |d| && HasId(ids, d[j].node) && ids[d[j].node] == s
  }

  /** The id map holds the ids already present and those of the records' rows with an id, nothing else. */
  lemma {:induction false} IdValuesKeys<V>(m: map<string, V>, d: seq<Diff<V>>, ids: map<RowId, string>)
    ensures forall s :: s in IdValuesInto(m, d, ids) <==> s in m || exists j :: WritesId(d, ids, j, s)
    decreases |d|
  {
    if |d| > 0 {
      var m' := if HasId(ids, d[0].node) then m[ids[d[0].node] := d[0].newData] else m;
      IdValuesKeys(m', d[1..], ids);
      assert forall s :: s in m' <==> s in m || WritesId(d, ids, 0, s);
      forall s ensures (exists j :: WritesId(d, ids, j, s)) <==> WritesId(d, ids, 0, s) || exists j :: WritesId(d[1..], ids, j, s) {
        if j :| WritesId(d, ids, j, s) && j > 0 {
          assert WritesId(d[1..], ids, j - 1, s);
        }
        if j :| WritesId(d[1..], ids, j, s) {
          assert WritesId(d, ids, j + 1, s);
        }
      }
    }
  }

  /** Each id holds the new value of the last record writing it. */
  lemma {:induction false} IdValuesLastWriter<V>(m: map<string, V>, d: seq<Diff<V>>, ids: map<RowId, string>, j: nat, s: string)
    requires WritesId(d, ids, j, s)
    requires forall j2 :: j < j2 < |d| ==> !WritesId(d, ids, j2, s)
    ensures s in IdValuesInto(m, d, ids) && IdValuesInto(m, d, ids)[s] == d[j].newData
    decreases |d|
  {
    var m' := if HasId(ids, d[0].node) then m[ids[d[0].node] := d[0].newData] else m;
    forall j2 | j <= j2 < |d| - 1 && j2 + 1 > j ensures !WritesId(d[1..], ids, j2, s) {
      assert d[1..][j2] == d[j2 + 1];
      assert !WritesId(d, ids, j2 + 1, s);
    }
    if j == 0 {
      IdValuesUntouched(m', d[1..], ids, s);
    } else {
      assert d[1..][j - 1] == d[j];
      assert WritesId(d[1..], ids, j - 1, s);
      IdValuesLastWriter(m', d[1..], ids, j - 1, s);
    }
  }

  /** An id no record writes keeps its value. */
  lemma {:induction false} IdValuesUntouched<V>(m: map<string, V>, d: seq<Diff<V>>, ids: map<RowId, string>, s: string)
    requires s in m
    requires forall j :: 0 <= j < |d| ==> !WritesId(d, ids, j, s)
    ensures s in IdValuesInto(m, d, ids) && IdValuesInto(m, d, ids)[s] == m[s]
    decreases |d|
  {
    if |d| > 0 {
      var m' := if HasId(ids, d[0].node) then m[ids[d[0].node] := d[0].newData] else m;
      assert !WritesId(d, ids, 0, s);
      forall j | 0 <= j < |d| - 1 ensures !WritesId(d[1..], ids, j, s) {
        assert d[1..][j] == d[j + 1];
        assert !WritesId(d, ids, j + 1, s);
      }
      IdValuesUntouched(m', d[1..], ids, s);
    }
  }

  /**
   * `idDiff`: the id -> new value map handed to listeners and to Editor.
   * Its ids are exactly those of the records' rows that have one, and each
   * holds the new value of the last record of a row with that id.
   */
  function IdValues<V>(d: seq<Diff<V>>, ids: map<RowId, string>): (m: map<string, V>)
    ensures forall s :: s in m <==> exists j :: WritesId(d, ids, j, s)
    ensures forall j, s :: WritesId(d, ids, j, s) && (forall j2 :: j < j2 < |d| ==> !WritesId(d, ids, j2, s)) ==>
      s in m && m[s] == d[j].newData
  {
    IdValuesKeys(map[], d, ids);
    assert forall j, s :: WritesId(d, ids, j, s) && (forall j2 :: j < j2 < |d| ==> !WritesId(d, ids, j2, s)) ==>
      s in IdValuesInto(map[], d, ids) && IdValuesInto(map[], d, ids)[s] == d[j].newData
    by {
      forall j, s | WritesId(d, ids, j, s) && (forall j2 :: j < j2 < |d| ==> !WritesId(d, ids, j2, s))
        ensures s in IdValuesInto(map[], d, ids) && IdValuesInto(map[], d, ids)[s] == d[j].newData
      {
        IdValuesLastWriter(map[], d, ids, j, s);
      }
    }
    IdValuesInto(map[], d, ids)
  }

  /** A drop back into the start order builds neither records nor an id map. */
  lemma SameOrderNoDiff<V>(order: seq<RowId>, field: map<RowId, V>, ids: map<RowId, string>)
    requires Comparable(order, order, field)
    ensures BuildDiff(order, order, field) == []
    ensures IdValues(BuildDiff(order, order, field), ids) == map[]
  {
    DiffEmptyIffSameOrder(order, order, field);
  }
}

=== FILE: geometry.dfy ===
/**
 * Placement geometry of a drag, over integers standing for pixels: the
 * insertion point among the cached row midpoints, the row under the
 * pointer at drag start, the drop-zone rectangle test and the floating
 * clone's position (js/RowReorder.ts:269-306, 423-439, 798-835).
 */
module Geometry {

  /** A rectangle `{left, top, right, bottom}` in page coordinates. */
  datatype Area = Area(left: int, top: int, right: int, bottom: int)

  /** Pixel (x, y) lies in the rectangle, taking the right and bottom edges as outside. */
  predicate Inside(a: Area, x: int, y: int) {
    a.left <= x < a.right && a.top <= y < a.bottom
  }

  function Max(x: int, y: int): int {
    if x < y then y else x
  }

  /** A rectangle of positive width and height. */
  predicate Proper(a: Area) {
    a.left < a.right && a.top < a.bottom
  }

  /**
   * `_rectanglesIntersect`: the separating-axis test. For proper
   * rectangles it holds exactly when the top-left corner of their overlap,
   * the larger of the two lefts and of the two tops, lies in both.
   */
  function RectanglesIntersect(a: Area, b: Area): (r: bool)
    ensures Proper(a) && Proper(b) ==>
      (r <==> Inside(a, Max(a.left, b.left), Max(a.top, b.top)) && Inside(b, Max(a.left, b.left), Max(a.top, b.top)))
  {
    !(a.left >= b.right || b.left >= a.right || a.top >= b.bottom || b.top >= a.bottom)
  }

  /** For proper rectangles the separating-axis test holds exactly when some pixel lies in both. */
  lemma IntersectIffSharedPixel(a: Area, b: Area)
    requires Proper(a) && Proper(b)
    ensures RectanglesIntersect(a, b) <==> exists x, y :: Inside(a, x, y) && Inside(b, x, y)
  {
    if RectanglesIntersect(a, b) {
      var x := Max(a.left, b.left);
      var y := Max(a.top, b.top);
      assert Inside(a, x, y) && Inside(b, x, y);
    }
  }

  /** The test does not depend on the order of its arguments. */
  lemma IntersectSymmetric(a: Area, b: Area)
    ensures RectanglesIntersect(a, b) == RectanglesIntersect(b, a)
  {
  }

  /** Rectangles that only share an edge do not intersect. */
  lemma SharedEdgeIsNoIntersection(a: Area, b: Area)
    requires a.right == b.left || a.bottom == b.top
    ensures !RectanglesIntersect(a, b) && !RectanglesIntersect(b, a)
  {
  }

  /**
   * The `for` loop of `_mouseMove` from index `i` on: the first index whose
   * midpoint lies below the pointer, or the number of rows when none does.
   */
  function InsertionPointFrom(middles: seq<int>, bodyY: int, i: nat): (r: nat)
    requires i <= |middles|
    ensures i <= r <= |middles|
    ensures forall k :: i <= k < r ==> middles[k] <= bodyY
    ensures r < |middles| ==> bodyY < middles[r]
    decreases |middles| - i
  {
    if i == |middles| then |middles|
    else if bodyY < middles[i] then i
    else InsertionPointFrom(middles, bodyY, i + 1)
  }

  /** The insertion point for body-relative pointer position `bodyY`. */
  function InsertionPoint(middles: seq<int>, bodyY: int): (r: nat)
    ensures r <= |middles|
    ensures forall k :: 0 <= k < r ==> middles[k] <= bodyY
    ensures r < |middles| ==> bodyY < middles[r]
  {
    InsertionPointFrom(middles, bodyY, 0)
  }

  /** The insertion point never moves up as the pointer moves down, whatever the midpoints. */
  lemma InsertionPointMonotone(middles: seq<int>, y1: int, y2: int)
    requires y1 <= y2
    ensures InsertionPoint(middles, y1) <= InsertionPoint(middles, y2)
  {
  }

  /** Above the first midpoint the row goes first; below every midpoint it goes last. */
  lemma InsertionPointEnds(middles: seq<int>, bodyY: int)
    ensures |middles| > 0 && bodyY < middles[0] ==> InsertionPoint(middles, bodyY) == 0
    ensures (forall k :: 0 <= k < |middles| ==> middles[k] <= bodyY) ==>
      InsertionPoint(middles, bodyY) == |middles|
  {
  }

  /** A row's box: its top relative to the table, and its outer height. */
  datatype RowBox = RowBox(top: int, outerHeight: int)

  /** `bodyY` lies within the row's vertical span, both ends included, after the header offset. */
  predicate Under(b: RowBox, headerHeight: int, bodyY: int) {
    b.top - headerHeight <= bodyY <= b.top - headerHeight + b.outerHeight
  }

  /**
   * `_calcRowIndexByPos`: the `forEach` overwrites its answer on every
   * match, so the result is the LAST row under the pointer, or -1.
   */
  function RowIndexAt(rows: seq<RowBox>, headerHeight: int, bodyY: int): (r: int)
    ensures -1 <= r < |rows|
    ensures 0 <= r ==> Under(rows[r], headerHeight, bodyY)
    ensures forall k :: r < k < |rows| ==> !Under(rows[k], headerHeight, bodyY)
  {
    if |rows| == 0 then -1
    else if Under(rows[|rows| - 1], headerHeight, bodyY) then |rows| - 1
    else
      var r := RowIndexAt(rows[..|rows| - 1], headerHeight, bodyY);
      assert forall k :: r < k < |rows| - 1 ==> rows[k] == rows[..|rows| - 1][k];
      r
  }

  /** The `snapX` option: free movement, locked to the row (`true`), or a fixed offset (a number). */
  datatype SnapX = Free | Locked | Offset(n: int)

  /** A CSS `{top, left}` position. */
  datatype Point = Point(top: int, left: int)

  /** The pointer and the row's offset at drag start. */
  datatype Anchor = Anchor(top: int, left: int, offsetTop: int, offsetLeft: int)

  /** The clone's top before clamping: the row's start offset plus the pointer's vertical travel. */
  function RawTop(start: Anchor, pageY: int): int {
    pageY - start.top + start.offsetTop
  }

  /**
   * `_clonePosition`: left follows `snapX`; top follows the pointer but is
   * raised to 0 when negative, or pulled up to the document's bottom when
   * the clone would overflow it.
   */
  function ClonePosition(start: Anchor, pageX: int, pageY: int, snap: SnapX, scrollLeft: int,
                         cloneOuterHeight: int, documentOuterHeight: int): (p: Point)
    ensures snap == Locked ==> p.left == start.offsetLeft
    ensures snap.Offset? ==> p.left == start.offsetLeft + snap.n
    ensures snap == Free ==> p.left - start.offsetLeft == pageX - start.left + scrollLeft
    ensures var raw := RawTop(start, pageY);
      if raw < 0 then p.top == 0
      else if raw + cloneOuterHeight > documentOuterHeight then p.top + cloneOuterHeight == documentOuterHeight
      else p.top == raw
  {
    var top := RawTop(start, pageY);
    var left := match snap
      case Locked => start.offsetLeft
      case Offset(n) => start.offsetLeft + n
      case Free => pageX - start.left + start.offsetLeft + scrollLeft;
    if top < 0 then Point(0, left)
    else if top + cloneOuterHeight > documentOuterHeight then Point(documentOuterHeight - cloneOuterHeight, left)
    else Point(top, left)
  }

  /**
   * When the clone fits in the document it stays entirely on it, and it
   * follows the pointer exactly whenever that keeps it on the document.
   */
  lemma CloneStaysOnDocument(start: Anchor, pageX: int, pageY: int, snap: SnapX, scrollLeft: int,
                             cloneOuterHeight: int, documentOuterHeight: int)
    requires 0 <= cloneOuterHeight <= documentOuterHeight
    ensures var p := ClonePosition(start, pageX, pageY, snap, scrollLeft, cloneOuterHeight, documentOuterHeight);
      && 0 <= p.top && p.top + cloneOuterHeight <= documentOuterHeight
      && (0 <= RawTop(start, pageY) <= documentOuterHeight - cloneOuterHeight ==> p.top == RawTop(start, pageY))
  {
  }

  /** A clone taller than the document is placed above the page top when it would overflow. */
  lemma TallCloneLeavesDocument(start: Anchor, pageX: int, pageY: int, snap: SnapX, scrollLeft: int,
                                cloneOuterHeight: int, documentOuterHeight: int)
    requires cloneOuterHeight > documentOuterHeight && RawTop(start, pageY) >= 0
    ensures ClonePosition(start, pageX, pageY, snap, scrollLeft, cloneOuterHeight, documentOuterHeight).top < 0
  {
  }
}

=== FILE: options.dfy ===
/**
 * RowReorder configuration: option values, the built-in defaults, the
 * later-wins merge of the constructor (js/RowReorder.ts:29-39, 52-61) and
 * the typed reading of the merged object that the handlers consult.
 */
module Options {
  import opened Geometry

  /** An option value as JavaScript sees it; `Obj` is any object (an Editor instance, form options). */
  datatype Value = Undefined | Null | Bool(b: bool) | Num(n: int) | Str(s: string) | Obj

  /** An options object: a map from key to value; a missing key reads as `undefined`. */
  type Options = map<string, Value>

  /** JavaScript truthiness of an option value. */
  predicate Truthy(v: Value) {
    match v
    case Undefined => false
    case Null => false
    case Bool(b) => b
    case Num(n) => n != 0
    case Str(s) => s != ""
    case Obj => true
  }

  /** Reading a key: `undefined` when absent. */
  function Get(o: Options, k: string): Value {
    if k in o then o[k] else Undefined
  }

  /** `RowReorder.defaults`: the nine built-in option values. */
  const Defaults: Options := map[
    "dataSrc" := Num(0),
    "editor" := Null,
    "enable" := Bool(true),
    "formOptions" := Obj,
    "selector" := Str("td:first-child"),
    "snapX" := Bool(false),
    "update" := Bool(true),
    "excludedChildren" := Str("a"),
    "cancelable" := Bool(false)
  ]

  /**
   * A host-level or table-level `rowReorder` setting: absent (`undefined`),
   * a boolean, or a plain options object.
   */
  datatype Setting = Absent | Flag(b: bool) | Plain(opts: Options)

  /** Truthiness of a setting: a plain object is always truthy. */
  predicate Enabled(s: Setting) {
    match s
    case Absent => false
    case Flag(b) => b
    case Plain(_) => true
  }

  /** The setting's own options when it is a plain object, otherwise none (`{}`). */
  function PlainOrEmpty(s: Setting): Options {
    if s.Plain? then s.opts else map[]
  }

  /**
   * `util.object.assign(target, source)`: every key of `source` is copied
   * over, so for a key in both the source's value wins.
   */
  function Assign(target: Options, source: Options): (r: Options)
    ensures r.Keys == target.Keys + source.Keys
    ensures forall k :: k in source ==> r[k] == source[k]
    ensures forall k :: k in target && k !in source ==> r[k] == target[k]
  {
    target + source
  }

  /**
   * The constructor's `this.c`: `{}`, then the host defaults when they
   * are a plain object, then `RowReorder.defaults`, then the options
   * passed in, each later source overriding the earlier ones.
   */
  function Merged(host: Setting, opts: Options): (c: Options)
    ensures c.Keys == PlainOrEmpty(host).Keys + Defaults.Keys + opts.Keys
    ensures forall k :: k in opts ==> c[k] == opts[k]
    ensures forall k :: k !in opts && k in Defaults ==> c[k] == Defaults[k]
    ensures forall k :: k !in opts && k !in Defaults && k in PlainOrEmpty(host) ==> c[k] == host.opts[k]
  {
    Assign(Assign(Assign(map[], PlainOrEmpty(host)), Defaults), opts)
  }

  /**
   * The typed view of the merged options that the handlers read: each
   * flag by truthiness, `snapX` by `=== true` and `typeof === 'number'`,
   * and whether an Editor is configured.
   */
  datatype Config = Config(enable: bool, update: bool, cancelable: bool, snapX: SnapX, editor: bool)

  /** The `snapX` reading of `_clonePosition`: `true` locks, a number offsets, anything else is free. */
  function SnapOf(v: Value): (s: SnapX)
    ensures s == Locked <==> v == Bool(true)
    ensures s.Offset? <==> v.Num?
    ensures s.Offset? ==> s.n == v.n
  {
    match v
    case Bool(true) => Locked
    case Num(n) => Offset(n)
    case _ => Free
  }

  /** JavaScript's falsy values among option values. */
  const Falsy: set<Value> := {Undefined, Null, Bool(false), Num(0), Str("")}

  /**
   * A flag is on exactly when its value is none of the falsy values;
   * `snapX` does something only for `true` or a number.
   */
  function Resolve(c: Options): (r: Config)
    ensures r.enable <==> Get(c, "enable") !in Falsy
    ensures r.update <==> Get(c, "update") !in Falsy
    ensures r.cancelable <==> Get(c, "cancelable") !in Falsy
    ensures r.editor <==> Get(c, "editor") !in Falsy
    ensures r.snapX != Free <==> Get(c, "snapX") == Bool(true) || Get(c, "snapX").Num?
  {
    Config(
      Truthy(Get(c, "enable")),
      Truthy(Get(c, "update")),
      Truthy(Get(c, "cancelable")),
      SnapOf(Get(c, "snapX")),
      Truthy(Get(c, "editor")))
  }

  /**
   * Constructing directly, the host defaults never reach a built-in key:
   * `RowReorder.defaults` comes after them, so only the passed options can
   * change `enable`, `update`, `cancelable`, `snapX` or `editor`.
   */
  lemma DefaultsShadowHost(host1: Setting, host2: Setting, opts: Options)
    ensures forall k :: k in Defaults ==> Get(Merged(host1, opts), k) == Get(Merged(host2, opts), k)
    ensures Resolve(Merged(host1, opts)) == Resolve(Merged(host2, opts))
  {
    var c1 := Merged(host1, opts);
    var c2 := Merged(host2, opts);
    assert forall k :: k in Defaults ==> Get(c1, k) == Get(c2, k);
    assert "enable" in Defaults && "update" in Defaults && "cancelable" in Defaults;
    assert "snapX" in Defaults && "editor" in Defaults;
  }

  /** With no options passed the instance is enabled, updates, is not cancelable, snaps freely and has no Editor. */
  lemma DefaultConfig(host: Setting)
    ensures Resolve(Merged(host, map[])) == Config(true, true, false, Free, false)
  {
    var c := Merged(host, map[]);
    assert "enable" in Defaults && "update" in Defaults && "cancelable" in Defaults;
    assert "snapX" in Defaults && "editor" in Defaults;
    assert Get(c, "enable") == Bool(true) && Get(c, "update") == Bool(true);
    assert Get(c, "cancelable") == Bool(false) && Get(c, "snapX") == Bool(false);
    assert Get(c, "editor") == Null;
  }
}

=== FILE: row_order.dfy ===
/**
 * The live row order of the current page while a row is being dragged.
 *
 * The table body's child rows are the order of record during a drag: the
 * dragged row is moved with `insertBefore` / `insertAfter` next to a
 * neighbouring row, never by index arithmetic. This module models that
 * order as a sequence of distinct row handles and the DOM moves as
 * operations on it (js/RowReorder.ts:604-635, 856-869).
 */
module RowOrder {
  import opened Common

  /** No row appears twice in the order. */
  predicate Distinct(s: seq<RowId>) {
    forall i, j :: 0 <= i < j < |s| ==> s[i] != s[j]
  }

  /** `Array.prototype.indexOf`: the first position of `x`, or -1. */
  function IndexOf(s: seq<RowId>, x: RowId): (r: int)
    ensures -1 <= r < |s|
    ensures 0 <= r ==> s[r] == x && forall k :: 0 <= k < r ==> s[k] != x
    ensures r == -1 <==> x !in s
  {
    if |s| == 0 then -1
    else if s[0] == x then 0
    else
      var k := IndexOf(s[1..], x);
      assert x in s[1..] ==> x in s;
      assert x in s && s[0] != x ==> x in s[1..] by {
        assert s == [s[0]] + s[1..];
      }
      if k == -1 then -1 else k + 1
  }

  /** The order with every occurrence of `x` filtered out. */
  function Without(s: seq<RowId>, x: RowId): seq<RowId>
  {
    if |s| == 0 then []
    else if s[0] == x then Without(s[1..], x)
    else [s[0]] + Without(s[1..], x)
  }

  function RemoveAt(s: seq<RowId>, p: nat): (r: seq<RowId>)
    requires p < |s|
    ensures |r| == |s| - 1
  {
    s[..p] + s[p + 1..]
  }

  function InsertAt(s: seq<RowId>, p: nat, x: RowId): (r: seq<RowId>)
    requires p <= |s|
    ensures |r| == |s| + 1
  {
    s[..p] + [x] + s[p..]
  }

  /** Where the DOM puts the moved row relative to its anchor. */
  datatype Placement = Before | After

  /**
   * `target.insertAfter(anchor)` / `target.insertBefore(anchor)`: the target
   * leaves its slot and is put right next to the anchor. Naming the target
   * itself as anchor leaves the order as it was, as in the DOM.
   */
  function Place(order: seq<RowId>, t: RowId, anchor: RowId, where: Placement): (r: seq<RowId>)
    requires Distinct(order) && t in order && anchor in order
    ensures |r| == |order|
    ensures anchor == t ==> r == order
  {
    if anchor == t then order
    else
      var rest := RemoveAt(order, IndexOf(order, t));
      var j := IndexOf(rest, anchor);
      if where == After then InsertAt(rest, j + 1, t) else InsertAt(rest, j, t)
  }

  /** Index the target ends at, given its index `p` and the anchor's index `a` before the move. */
  function PlacedIndex(p: int, a: int, where: Placement): int {
    if where == After then (if p <= a then a else a + 1)
    else (if p < a then a - 1 else a)
  }

  lemma {:induction false} IndexOfDistinct(s: seq<RowId>, i: nat)
    requires Distinct(s) && i < |s|
    ensures IndexOf(s, s[i]) == i
  {
    var r := IndexOf(s, s[i]);
    assert s[i] in s;
  }

  lemma {:induction false} WithoutConcat(a: seq<RowId>, b: seq<RowId>, x: RowId)
    ensures Without(a + b, x) == Without(a, x) + Without(b, x)
    decreases |a|
  {
    if |a| == 0 {
      assert a + b == b;
    } else {
      assert (a + b)[0] == a[0];
      assert (a + b)[1..] == a[1..] + b;
      WithoutConcat(a[1..], b, x);
    }
  }

  lemma {:induction false} WithoutAbsent(s: seq<RowId>, x: RowId)
    requires x !in s
    ensures Without(s, x) == s
    decreases |s|
  {
    if |s| > 0 {
      assert s[0] != x;
      assert x !in s[1..];
      WithoutAbsent(s[1..], x);
      assert s == [s[0]] + s[1..];
    }
  }

  /** A row of a distinct order occurs neither before nor after its own slot. */
  lemma SlotIsUnique(s: seq<RowId>, p: nat)
    requires Distinct(s) && p < |s|
    ensures s[p] !in s[..p] && s[p] !in s[p + 1..]
  {
    var pre := s[..p];
    var suf := s[p + 1..];
    forall k | 0 <= k < |pre| ensures pre[k] != s[p] {
      assert pre[k] == s[k];
    }
    forall k | 0 <= k < |suf| ensures suf[k] != s[p] {
      assert suf[k] == s[p + 1 + k];
    }
  }

  /** Filtering `x` out of `pre + [x] + suf` when it occurs nowhere else. */
  lemma WithoutSingle(pre: seq<RowId>, x: RowId, suf: seq<RowId>)
    requires x !in pre && x !in suf
    ensures Without(pre + [x] + suf, x) == pre + suf
  {
    assert pre + [x] + suf == pre + ([x] + suf);
    WithoutConcat(pre, [x] + suf, x);
    WithoutConcat([x], suf, x);
    WithoutAbsent(pre, x);
    WithoutAbsent(suf, x);
    assert [x][1..] == [];
    assert Without([x], x) == [];
  }

  /** In a distinct order, filtering a row out is removing it at its slot. */
  lemma WithoutRemovesSlot(s: seq<RowId>, p: nat)
    requires Distinct(s) && p < |s|
    ensures Without(s, s[p]) == RemoveAt(s, p)
  {
    SlotIsUnique(s, p);
    WithoutSingle(s[..p], s[p], s[p + 1..]);
    assert s == s[..p] + [s[p]] + s[p + 1..];
  }

  lemma WithoutInserted(s: seq<RowId>, p: nat, x: RowId)
    requires x !in s && p <= |s|
    ensures Without(InsertAt(s, p, x), x) == s
  {
    assert x !in s[..p] && x !in s[p..];
    WithoutSingle(s[..p], x, s[p..]);
    assert s[..p] + s[p..] == s;
  }

  /** Removing the row at slot `p` of a distinct order. */
  lemma RemoveAtFacts(s: seq<RowId>, p: nat)
    requires Distinct(s) && p < |s|
    ensures var r := RemoveAt(s, p);
      && |r| == |s| - 1
      && (forall k :: 0 <= k < p ==> r[k] == s[k])
      && (forall k :: p <= k < |r| ==> r[k] == s[k + 1])
      && Distinct(r)
      && s[p] !in r
  {
    var r := RemoveAt(s, p);
    SlotIsUnique(s, p);
    forall i, j | 0 <= i < j < |r| ensures r[i] != r[j] {
      var oi := if i < p then i else i + 1;
      var oj := if j < p then j else j + 1;
      assert r[i] == s[oi] && r[j] == s[oj];
    }
  }

  /** Removing slot `p` takes exactly that row out of the multiset of rows. */
  lemma RemoveAtMultiset(s: seq<RowId>, p: nat)
    requires p < |s|
    ensures multiset(s) == multiset(RemoveAt(s, p)) + multiset{s[p]}
  {
    assert s == s[..p] + [s[p]] + s[p + 1..];
  }

  /** Inserting a fresh row at slot `k` of a distinct order. */
  lemma InsertAtFacts(s: seq<RowId>, k: nat, x: RowId)
    requires Distinct(s) && x !in s && k <= |s|
    ensures var r := InsertAt(s, k, x);
      && |r| == |s| + 1
      && (forall i :: 0 <= i < k ==> r[i] == s[i])
      && r[k] == x
      && (forall i :: k < i < |r| ==> r[i] == s[i - 1])
      && Distinct(r)
      && multiset(r) == multiset(s) + multiset{x}
  {
    var r := InsertAt(s, k, x);
    assert s == s[..k] + s[k..];
    forall i, i' | 0 <= i < i' < |r| ensures r[i] != r[i'] {
      if i == k {
        assert r[i'] == s[i' - 1];
      } else if i' == k {
        assert r[i] == s[i];
      } else {
        var si := if i < k then i else i - 1;
        var si' := if i' < k then i' else i' - 1;
        assert r[i] == s[si] && r[i'] == s[si'];
      }
    }
  }

  /** Where the anchor sits once the target is taken out of its slot. */
  lemma AnchorSlot(order: seq<RowId>, t: RowId, anchor: RowId) returns (a': nat)
    requires Distinct(order) && t in order && anchor in order && anchor != t
    ensures var p := IndexOf(order, t);
      var a := IndexOf(order, anchor);
      var rest := RemoveAt(order, p);
      && a' == (if a < p then a else a - 1)
      && a' < |rest| && rest[a'] == anchor && IndexOf(rest, anchor) == a'
      && Distinct(rest) && t !in rest
  {
    var p := IndexOf(order, t);
    var a := IndexOf(order, anchor);
    var rest := RemoveAt(order, p);
    RemoveAtFacts(order, p);
    a' := if a < p then a else a - 1;
    assert rest[a'] == order[a];
    IndexOfDistinct(rest, a');
  }

  /** The slot the target is reinserted at, in the order with the target removed. */
  lemma MovedSlot(order: seq<RowId>, t: RowId, anchor: RowId, where: Placement) returns (k: nat)
    requires Distinct(order) && t in order && anchor in order && anchor != t
    ensures var p := IndexOf(order, t);
      var a := IndexOf(order, anchor);
      var rest := RemoveAt(order, p);
      && k == (if where == After then 1 else 0) + (if a < p then a else a - 1)
      && k <= |rest| && Distinct(rest) && t !in rest
      && Place(order, t, anchor, where) == InsertAt(rest, k, t)
      && (where == After ==> 0 < k && rest[k - 1] == anchor)
      && (where == Before ==> k < |rest| && rest[k] == anchor)
  {
    var a' := AnchorSlot(order, t, anchor);
    k := if where == After then a' + 1 else a';
  }

  /**
   * The DOM move keeps the rows a permutation and keeps every other row in
   * its relative order.
   */
  lemma PlacePermutes(order: seq<RowId>, t: RowId, anchor: RowId, where: Placement)
    requires Distinct(order) && t in order && anchor in order
    ensures var r := Place(order, t, anchor, where);
      && Distinct(r)
      && multiset(r) == multiset(order)
      && Without(r, t) == Without(order, t)
      && t in r
  {
    if anchor != t {
      var p := IndexOf(order, t);
      var rest := RemoveAt(order, p);
      var k := MovedSlot(order, t, anchor, where);
      RemoveAtFacts(order, p);
      RemoveAtMultiset(order, p);
      InsertAtFacts(rest, k, t);
      WithoutInserted(rest, k, t);
      WithoutRemovesSlot(order, p);
    }
  }

  /**
   * After the DOM move the target sits right next to its anchor, at the
   * index PlacedIndex predicts.
   */
  lemma PlacePosition(order: seq<RowId>, t: RowId, anchor: RowId, where: Placement)
    requires Distinct(order) && t in order && anchor in order
    ensures var r := Place(order, t, anchor, where);
      && IndexOf(r, t) == PlacedIndex(IndexOf(order, t), IndexOf(order, anchor), where)
      && (anchor != t && where == After ==> IndexOf(r, t) == IndexOf(r, anchor) + 1)
      && (anchor != t && where == Before ==> IndexOf(r, anchor) == IndexOf(r, t) + 1)
  {
    if anchor != t {
      var p := IndexOf(order, t);
      var rest := RemoveAt(order, p);
      var k := MovedSlot(order, t, anchor, where);
      var r := InsertAt(rest, k, t);
      InsertAtFacts(rest, k, t);
      IndexOfDistinct(r, k);
      if where == After {
        assert r[k - 1] == anchor;
        IndexOfDistinct(r, k - 1);
      } else {
        assert r[k + 1] == anchor;
        IndexOfDistinct(r, k + 1);
      }
    }
  }

  /** Outcome of `_moveTargetIntoPosition`: the new order, and the placement when a move happened. */
  datatype Move = Move(order: seq<RowId>, placement: Option<Placement>)

  /**
   * The insertion points the code can act on: an unchanged point, an
   * "after" move whose neighbour `nodes[ip - 1]` exists, or a "before"
   * move whose neighbour `nodes[ip]` exists. This excludes a row index of
   * -1 and `insertBefore(nodes[n])`, which the code does not handle.
   */
  predicate CanPlace(n: nat, last: nat, ip: int) {
    ip == last || (last < ip <= n) || (0 <= ip < last && ip < n)
  }

  /** The target is in the slot just left of, or at, insertion point `ip`. */
  predicate Tracks(order: seq<RowId>, t: RowId, ip: int) {
    IndexOf(order, t) == ip - 1 || IndexOf(order, t) == ip
  }

  /**
   * `_moveTargetIntoPosition` on the row order: nothing happens when the
   * insertion point equals the last one; otherwise the target goes after
   * the row at `ip - 1` when moving to a higher point, or before the row
   * at `ip` when moving to a lower one.
   */
  function MoveTarget(order: seq<RowId>, t: RowId, last: nat, ip: int): (m: Move)
    requires Distinct(order) && t in order && CanPlace(|order|, last, ip)
    ensures m.placement.None? <==> ip == last
    ensures ip == last ==> m.order == order
    ensures m.placement == Some(After) <==> ip > last
    ensures Distinct(m.order) && multiset(m.order) == multiset(order)
    ensures Without(m.order, t) == Without(order, t)
    ensures t in m.order
    ensures ip > last ==> (order[ip - 1] == t || IndexOf(m.order, t) == IndexOf(m.order, order[ip - 1]) + 1)
    ensures ip > last ==>
      IndexOf(m.order, t) == (if IndexOf(order, t) <= ip - 1 then ip - 1 else ip)
    ensures ip < last ==> (order[ip] == t || IndexOf(m.order, order[ip]) == IndexOf(m.order, t) + 1)
    ensures ip < last ==>
      IndexOf(m.order, t) == (if IndexOf(order, t) < ip then ip - 1 else ip)
    ensures ip != last ==> Tracks(m.order, t, ip)
  {
    if ip == last then Move(order, None)
    else if ip > last then
      PlacePermutes(order, t, order[ip - 1], After);
      PlacePosition(order, t, order[ip - 1], After);
      IndexOfDistinct(order, ip - 1);
      Move(Place(order, t, order[ip - 1], After), Some(After))
    else
      PlacePermutes(order, t, order[ip], Before);
      PlacePosition(order, t, order[ip], Before);
      IndexOfDistinct(order, ip);
      Move(Place(order, t, order[ip], Before), Some(Before))
  }

  /** The insertion point `_cancel` (and a disallowed drop in `_mouseMove`) snaps back to. */
  function SnapBackPoint(rowIndex: int, last: nat): (ip: int)
    ensures ip == rowIndex || ip == rowIndex + 1
    ensures ip == rowIndex + 1 <==> rowIndex > last
  {
    if rowIndex > last then rowIndex + 1 else rowIndex
  }

  /** Two distinct orders that agree on the other rows and hold `t` at the same slot are equal. */
  lemma DeterminedBySlot(s1: seq<RowId>, s2: seq<RowId>, t: RowId, i: nat)
    requires Distinct(s1) && Distinct(s2)
    requires i < |s1| && i < |s2| && s1[i] == t && s2[i] == t
    requires Without(s1, t) == Without(s2, t)
    ensures s1 == s2
  {
    WithoutRemovesSlot(s1, i);
    WithoutRemovesSlot(s2, i);
    var r1 := RemoveAt(s1, i);
    var r2 := RemoveAt(s2, i);
    assert |s1| == |s2|;
    forall k | 0 <= k < |s1| ensures s1[k] == s2[k] {
      if k < i {
        assert r1[k] == s1[k] && r2[k] == s2[k];
      } else if k > i {
        assert r1[k - 1] == s1[k] && r2[k - 1] == s2[k];
      }
    }
  }

  /**
   * When the snap-back restores the start order: the target started at
   * `rowIndex`, the other rows kept their order, and either nothing has
   * moved yet or the target tracks the last insertion point without
   * sitting one slot left of it while `rowIndex == last`.
   */
  lemma {:induction false} SnapBackRestores(start: seq<RowId>, order: seq<RowId>, t: RowId, rowIndex: int, last: nat)
    requires Distinct(start) && Distinct(order)
    requires 0 <= rowIndex < |start| && start[rowIndex] == t && t in order
    requires Without(order, t) == Without(start, t)
    requires order == start || (Tracks(order, t, last) && (rowIndex != last || IndexOf(order, t) == last))
    ensures CanPlace(|order|, last, SnapBackPoint(rowIndex, last))
    ensures MoveTarget(order, t, last, SnapBackPoint(rowIndex, last)).order == start
  {
    var p := IndexOf(order, t);
    WithoutRemovesSlot(order, p);
    WithoutRemovesSlot(start, rowIndex);
    assert |order| == |start|;
    var ip := SnapBackPoint(rowIndex, last);
    assert CanPlace(|order|, last, ip);
    var m := MoveTarget(order, t, last, ip);
    if order == start {
      IndexOfDistinct(start, rowIndex);
      assert p == rowIndex;
      if ip == last {
      } else if ip > last {
        assert order[ip - 1] == t;
        assert m.order == Place(order, t, t, After);
      } else {
        assert order[ip] == t;
        assert m.order == Place(order, t, t, Before);
      }
    } else {
      if rowIndex == last {
        assert m.order == order;
        DeterminedBySlot(order, start, t, rowIndex);
      } else {
        assert IndexOf(m.order, t) == rowIndex;
        DeterminedBySlot(m.order, start, t, rowIndex);
      }
    }
  }
}

=== FILE: scenarios.dfy ===
/**
 * Concrete runs of the model on small pages, each stating an outcome the
 * general lemmas leave open or that shows a quirk of the code.
 */
module Scenarios {
  import opened Common
  import opened RowOrder
  import opened DiffCommit
  import opened Options
  import opened Controller
  import opened Api

  /** Insertion point 2 names row 2 itself as the anchor of an "after" move: nothing moves. */
  lemma FirstMoveIsNoOp()
    ensures Distinct([1, 2, 3, 4]) && MoveTarget([1, 2, 3, 4], 2, 0, 2).order == [1, 2, 3, 4]
  {
    assert Distinct([1, 2, 3, 4]);
  }

  /** `insertBefore` row 1 on `[1, 2, 3, 4]` with row 2 as the target. */
  lemma TwoBeforeOne()
    ensures Distinct([1, 2, 3, 4]) && Place([1, 2, 3, 4], 2, 1, Before) == [2, 1, 3, 4]
  {
    var s := [1, 2, 3, 4];
    assert Distinct(s);
    assert IndexOf(s, 2) == 1;
    assert RemoveAt(s, 1) == [1, 3, 4];
    assert IndexOf([1, 3, 4], 1) == 0;
  }

  /** Back to insertion point 0: row 2 goes before row 1. */
  lemma SecondMoveToTop()
    ensures Distinct([1, 2, 3, 4]) && MoveTarget([1, 2, 3, 4], 2, 2, 0).order == [2, 1, 3, 4]
  {
    TwoBeforeOne();
    var s := [1, 2, 3, 4];
    assert MoveTarget(s, 2, 2, 0).order == Place(s, 2, s[0], Before);
  }

  /** Insertion point 1 after point 0 names row 2, now first, as its own anchor: nothing moves. */
  lemma ThirdMoveIsNoOp()
    ensures Distinct([2, 1, 3, 4]) && MoveTarget([2, 1, 3, 4], 2, 0, 1).order == [2, 1, 3, 4]
  {
    assert Distinct([2, 1, 3, 4]);
  }

  /**
   * Cancel does not always restore the start order. On `[1, 2, 3, 4]`,
   * dragging row 2 (start index 1, `lastInsert` 0) to insertion points 2,
   * 0 and 1 leaves `[2, 1, 3, 4]` with `lastInsert` 1; the snap-back point
   * is then 1 as well, so the cancel moves nothing and row 2 stays first.
   */
  lemma CancelCanLeaveRowMoved()
    ensures Distinct([1, 2, 3, 4])
    ensures var m1 := MoveTarget([1, 2, 3, 4], 2, 0, 2).order;
      m1 == [1, 2, 3, 4]
      && var m2 := MoveTarget(m1, 2, 2, 0).order;
      m2 == [2, 1, 3, 4]
      && var m3 := MoveTarget(m2, 2, 0, 1).order;
      m3 == [2, 1, 3, 4]
      && SnapBackPoint(1, 1) == 1
      && MoveTarget(m3, 2, 1, SnapBackPoint(1, 1)).order == [2, 1, 3, 4]
  {
    FirstMoveIsNoOp();
    SecondMoveToTop();
    ThirdMoveIsNoOp();
  }

  /** `insertAfter` row 3 on `[1, 2, 3]` with row 1 as the target. */
  lemma OneAfterThree()
    ensures Distinct([1, 2, 3]) && Place([1, 2, 3], 1, 3, After) == [2, 3, 1]
  {
    var s := [1, 2, 3];
    assert Distinct(s);
    assert IndexOf(s, 1) == 0;
    assert RemoveAt(s, 0) == [2, 3];
    assert IndexOf([2, 3], 3) == 1;
  }

  /** Dragging the first of three rows to the end: it goes after row 3. */
  lemma MoveFirstToEnd()
    ensures Distinct([1, 2, 3]) && MoveTarget([1, 2, 3], 1, 0, 3).order == [2, 3, 1]
  {
    OneAfterThree();
    var s := [1, 2, 3];
    assert MoveTarget(s, 1, 0, 3).order == Place(s, 1, s[2], After);
  }

  /** `insertBefore` row 2 on `[2, 3, 1]` with row 1 as the target. */
  lemma OneBeforeTwo()
    ensures Distinct([2, 3, 1]) && Place([2, 3, 1], 1, 2, Before) == [1, 2, 3]
  {
    var s := [2, 3, 1];
    assert Distinct(s);
    assert IndexOf(s, 1) == 2;
    assert RemoveAt(s, 2) == [2, 3];
    assert IndexOf([2, 3], 2) == 0;
  }

  /** ... and the cancel (start index 0, `lastInsert` 3) puts it back before row 2. */
  lemma CancelFromEndRestores()
    ensures Distinct([2, 3, 1]) && SnapBackPoint(0, 3) == 0
    ensures MoveTarget([2, 3, 1], 1, 3, SnapBackPoint(0, 3)).order == [1, 2, 3]
  {
    OneBeforeTwo();
    var s := [2, 3, 1];
    assert MoveTarget(s, 1, 3, 0).order == Place(s, 1, s[0], Before);
  }

  /** The diff of `[1, 2, 3]` reordered to `[2, 3, 1]` with values 10, 20, 30: all three slots changed. */
  lemma RotateThreeRowsDiff()
    ensures BuildDiff([1, 2, 3], [2, 3, 1], map[1 := 10, 2 := 20, 3 := 30])
      == [Diff(2, 20, 10, 0, 1), Diff(3, 30, 20, 1, 2), Diff(1, 10, 30, 2, 0)]
  {
    var field := map[1 := 10, 2 := 20, 3 := 30];
    var start := [1, 2, 3];
    var end := [2, 3, 1];
    assert IndexOf(start, 2) == 1 && IndexOf(start, 3) == 2 && IndexOf(start, 1) == 0;
    assert DiffFrom(start, end, field, 3) == [];
    assert DiffFrom(start, end, field, 2) == [Diff(1, 10, 30, 2, 0)];
    assert DiffFrom(start, end, field, 1) == [Diff(3, 30, 20, 1, 2), Diff(1, 10, 30, 2, 0)];
  }

  /** Committing that diff: the slots read 10, 20, 30 again. */
  lemma RotateThreeRows()
    ensures var field := map[1 := 10, 2 := 20, 3 := 30];
      ApplyDiff(field, BuildDiff([1, 2, 3], [2, 3, 1], field)) == map[2 := 10, 3 := 20, 1 := 30]
  {
    RotateThreeRowsDiff();
    var d := [Diff(2, 20, 10, 0, 1), Diff(3, 30, 20, 1, 2), Diff(1, 10, 30, 2, 0)];
    assert d[1..] == [Diff(3, 30, 20, 1, 2), Diff(1, 10, 30, 2, 0)];
    assert d[1..][1..] == [Diff(1, 10, 30, 2, 0)];
    assert d[1..][1..][1..] == [];
  }

  /** Swapping two rows gives two records, and a row without an id adds nothing to the id map. */
  lemma SwapWithUnnamedRow()
    ensures var field := map[1 := 10, 2 := 20, 3 := 30];
      var d := BuildDiff([1, 2, 3], [1, 3, 2], field);
      d == [Diff(3, 30, 20, 1, 2), Diff(2, 20, 30, 2, 1)]
      && IdValues(d, map[1 := "a", 2 := "", 3 := "c"]) == map["c" := 20]
  {
    var field := map[1 := 10, 2 := 20, 3 := 30];
    var start := [1, 2, 3];
    var end := [1, 3, 2];
    assert IndexOf(start, 3) == 2 && IndexOf(start, 2) == 1;
    assert DiffFrom(start, end, field, 3) == [];
    assert DiffFrom(start, end, field, 2) == [Diff(2, 20, 30, 2, 1)];
    assert DiffFrom(start, end, field, 1) == [Diff(3, 30, 20, 1, 2), Diff(2, 20, 30, 2, 1)];
    var d := BuildDiff(start, end, field);
    var ids := map[1 := "a", 2 := "", 3 := "c"];
    assert d[1..] == [Diff(2, 20, 30, 2, 1)];
    assert d[1..][1..] == [];
    assert !HasId(ids, 2);
  }

  /**
   * Host defaults `{enable: false}` with the table option `true`: through
   * auto-init the instance starts disabled, while constructing directly
   * with no options keeps the built-in `enable: true`.
   */
  lemma HostDefaultsPrecedence<V>(t: Table<V>)
    requires t.rowReorder.None?
    ensures var host := Plain(map["enable" := Bool(false)]);
      && !InitTable(t, Flag(true), host).rowReorder.value.config.enable
      && Construct(t, host, map[]).rowReorder.value.config.enable
  {
    var host := Plain(map["enable" := Bool(false)]);
    var opts := AutoInitOptions(Flag(true), host).value;
    assert opts == map["enable" := Bool(false)];
    assert Get(Merged(host, opts), "enable") == Bool(false);
    DefaultConfig(host);
  }

  /** The table option `false` wins over any host default: no instance is made. */
  lemma FalseOptionSuppressesInit<V>(t: Table<V>, hostDefaults: Setting)
    requires t.rowReorder.None?
    ensures InitTable(t, Flag(false), hostDefaults) == t
  {
  }
}
